=== FILE: README.md ===
# Rental listings: server handlers and client pages

A Dafny model of a small rental-listing application, covering four parts:

- The Express server in `server/index.js`, with its listings, users and
  visitor messages.
- The browsing page (`HomePage.jsx`). It builds a state-to-cities index from
  the fetched listings and filters them by the chosen state and city.
- The admin dashboard (`AdminDashboard.jsx`). It validates the add and edit
  forms, builds their request bodies, and updates its local copies of the
  listings and of the grouped requests after each successful request.
- The shortlist page (`ShortlistPage.jsx`). It flattens the grouped requests
  and keeps the logged-in visitor's own.

Modules:

- `Seqs`: `Option`, `FirstWhere` (the first index whose element satisfies a
  predicate, which every lookup by id uses), an order-preserving `Filter`,
  `MapSeq`, the subsequence relation and a stable insertion sort.
- `Model`: the documents (`Listing`, `User`, `Message`), the request bodies,
  and JavaScript truthiness of strings and numeric fields. It also holds an
  idealised bcrypt: a digest records its cost, salt and preimage.
- `Grouping`: the read-time projection of `GET /api/messages`. Messages are
  sorted newest first and grouped by property. `GroupsOf` is an independent
  description of a correct grouping, and the loop is proved to meet it.
- `Server`: one pure function per route, from the store and the request to
  the response and the new store.
  - The store keeps listings and messages in insertion order, and users keyed
    by email.
  - `online == false` stands for an unreachable database, which gives a 500
    answer.
  - The generated message id, `Date.now()`, the bcrypt salt and the upload's
    file name are parameters.
- `Browse`: the browsing page's index, its state-change effect and its search.
- `Admin`: `String.prototype.trim`, the form checks, the request payloads and
  the dashboard handlers.
  - A request's result is a parameter.
  - The `...MirrorsServer` lemmas feed in the matching server handler's answer
    and prove that the page's local list then equals the stored one.
- `Shortlist`: the shortlist page's fetch effect and status badge. Flattening
  is proved to undo the server's grouping up to order.

## Model

| member | source | states |
|---|---|---|
| Model.Or | src/pages/AdminDashboard.jsx:113 | `s \|\| fallback` on strings: the result is `s` when `s` is non-empty, else the fallback, so it is empty only when both are |
| Model.Hash | server/index.js:89-90 | a stored digest always carries the 10 salt rounds |
| Model.HashMatchesOnlyItsPassword | server/index.js:121 | `bcrypt.compare` accepts a digest for the password it was made from, whatever the salt, and for no other password of the idealised hash (see Left out) |
| Grouping.SortNewestFirst | server/index.js:253 | the messages sorted by descending timestamp: a permutation of the stored messages, each one's timestamp at least the next one's |
| Grouping.GroupByProperty | server/index.js:255-273 | grouping yields no more groups than messages, and no groups exactly when there are no messages |
| Grouping.AddTo | server/index.js:256-272 | a message goes into the first group of its property; a new group is opened at the end when there is none |
| Grouping.AddToKeepsGroupsOf | server/index.js:256-272 | one pass of the `forEach` keeps the grouping correct for the messages scanned so far |
| Grouping.GroupByPropertyCorrect | server/index.js:255-273 | the grouping loop meets `GroupsOf`: every group is about a scanned property, and every message's property has a group. Groups come in first-encounter order. Each group holds exactly its property's messages in scan order and is titled by the first of them |
| Grouping.GroupByPropertyTotal | server/index.js:255-273 | grouping neither loses nor duplicates a message: the group sizes add up to the number of messages |
| Grouping.GroupsSourced | server/index.js:257-263 | a group exists only for a property some message is about |
| Grouping.GroupKeysDistinct | server/index.js:257 | no two groups share a property id |
| Grouping.EveryMessageInItsGroup | server/index.js:264-272 | every message's entry is inside the group of its own property |
| Grouping.ObjectValuesOrder | server/index.js:274 | `Object.values` returns the same groups (a permutation): the array-index keys come first, in ascending order, and the other keys follow in insertion order |
| Grouping.GroupByPropertyAsWritten | server/index.js:253-274 | the handler's answer as written is a permutation of the first-encounter grouping: array-index property ids first and ascending, the others in first-encounter order |
| Grouping.AsWrittenAgreesWithoutIndexKeys | server/index.js:274 | when no property id is an array index (ids from `Date.now()`), `Object.values` keeps first-encounter order |
| Grouping.AsWrittenBreaksFirstEncounterOrder | server/index.js:253-274 | two messages, about properties 2 (newer) and 1 (older): property 2 is met first, yet the handler answers with property 1's group first |
| Server.FindListing | server/index.js:146 | `findOne({ id })` finds the first listing with the id, or reports that none has it |
| Server.FindMessage | server/index.js:283 | `findById` finds the message with the id, or reports that none has it |
| Server.Register | server/index.js:75-104 | a missing name, email or password gives 400 "All fields are required". Success (201) comes exactly when all three are given, the store is up and the email is new. A taken email gives 400 "Email already registered". Success answers 201 "User registered successfully" and adds exactly that user, with the password hashed; any other answer changes nothing |
| Server.Login | server/index.js:107-131 | a missing email or password gives 400. Success (200) comes exactly when the user exists and the password matches, and answers with the name and email only. Any other reachable failure gives 401 "Invalid email or password" |
| Server.LoginFailuresIndistinguishable | server/index.js:115-124 | an unknown email and a wrong password get the very same 401 answer |
| Server.RegisterThenLogin | server/index.js:89-100 | after a successful registration, login succeeds with the registered password |
| Server.RegisterTwiceRefused | server/index.js:83-86 | a second registration with the same email is refused and changes nothing |
| Server.RegisterPreservesValid | server/index.js:55-59 | registration keeps users keyed by their own email, and keeps listing and message ids unique |
| Server.ListProperties | server/index.js:135-142 | every stored listing, in stored order, unless the store is down |
| Server.ListAgreesWithGet | server/index.js:135-154 | a single read finds a listing exactly when the full list holds one with that id, and answers the first such listing of the list |
| Server.GetProperty | server/index.js:144-154 | 200 exactly when the store is up and some listing has the id, 404 exactly when it is up and none has. On 200 the listing returned is stored and has that id |
| Server.ImageUrlFor | server/index.js:163 | the image URL is the uploaded file under `/uploads/`, else the body's URL, else the placeholder |
| Server.SaveNew | server/index.js:176-184 | saving succeeds exactly when the store is up and the id is free. A taken id gives 400 "Property with this ID already exists", and a refusal changes nothing |
| Server.CreateProperty | server/index.js:157-185 | a missing field gives 400 "All required fields must be provided", with 0 bedrooms or bathrooms allowed. Success comes exactly when the fields are present, the store is up and the id is free. Success answers 201 with the new listing, appends exactly that listing and touches nothing else |
| Server.CreatePropertyAsWritten | server/index.js:160-162 | the check as written refuses every falsy field, and otherwise behaves like `CreateProperty` |
| Server.ZeroBedroomsRefusedAsWritten | server/index.js:160 | a listing with 0 bedrooms that the corrected check stores is refused by the check as written |
| Server.CreateThenList | server/index.js:135-185 | after a successful create, the list is the earlier list followed by the new listing |
| Server.CreateThenGet | server/index.js:157-185 | a created listing reads back by its id with the submitted fields, the image by precedence, and `approved` false |
| Server.CreateDuplicateRefused | server/index.js:179-180 | creating a second listing with a taken id is refused and leaves the store as it was |
| Server.CreatePreservesValid | server/index.js:39-51 | creation keeps listing ids unique and the required strings non-empty |
| Server.Merge | server/index.js:193 | `Object.assign`: every field the body carries overwrites the stored one, and every field it leaves out, id and approval flag included, is kept |
| Server.MergeLaws | server/index.js:193 | `Object.assign` with an empty body changes nothing, applying a body twice is applying it once, and two bodies in turn are one combined body |
| Server.MergePriceOnly | server/index.js:193 | a body with only a price changes the price and nothing else |
| Server.UpdateProperty | server/index.js:187-199 | 404 exactly when no listing has the id. 200 exactly when the store is up, a listing has the id, and the merged document keeps the required strings and takes no other listing's id. On 200 the first listing with the id is replaced by the merged one, which is also the answer. Any other answer changes nothing |
| Server.UpdatePreservesValid | server/index.js:193-194 | an update that would duplicate an id or empty a required string is not saved |
| Server.DeleteProperty | server/index.js:201-211 | 404 exactly when no listing has the id; 200 exactly when the store is up and one has. On 200 the answer is "Property deleted" and exactly the first listing with the id is removed; otherwise nothing changes |
| Server.DeleteRemovesExactlyThatListing | server/index.js:203 | with unique ids, deleting keeps every other listing, in order, and removes only the one with that id |
| Server.DeletePreservesValid | server/index.js:203 | deletion keeps ids unique |
| Server.ApproveProperty | server/index.js:214-226 | 404 exactly when no listing has the id; 200 exactly when the store is up and one has. On 200 only the first listing with the id gets `approved` set to true and the answer carries it; otherwise nothing changes |
| Server.ApprovePropertyIdempotent | server/index.js:220-222 | approving twice gives the same answer and the same store as approving once |
| Server.ApprovePreservesValid | server/index.js:220-221 | approval keeps the store invariant |
| Server.SubmitMessage | server/index.js:229-248 | a missing property id, title, name, email or message gives 400. Success answers 201 "Message sent successfully" and appends exactly one message, with status "pending", the given fields and the time; any other answer changes nothing |
| Server.SubmitPreservesValid | server/index.js:235-243 | a stored message gets a fresh id |
| Server.GroupedView | server/index.js:253-273 | the newest-first messages grouped correctly (`GroupsOf`), holding every message once |
| Server.ListMessagesGrouped | server/index.js:251-278 | 200 exactly when the store is up, answering a correct grouping of the newest-first messages that holds every message once (the corrected group order) |
| Server.ApproveMessage | server/index.js:281-293 | 404 "Request not found" exactly when no message has the id; 200 exactly when the store is up and one has. On 200 only the first message with the id gets status "approved" and the answer carries it; otherwise nothing changes |
| Server.ApproveMessageIdempotent | server/index.js:287-288 | approving a request twice is approving it once |
| Server.ApproveMessagePreservesValid | server/index.js:287-288 | approving a request keeps message ids unique |
| Browse.BuildLocations | src/pages/HomePage.jsx:61-75 | the index lists every state once, each with at least one city and no city twice. It covers every listing's state and city and invents none |
| Browse.SelectState | src/pages/HomePage.jsx:93-105 | changing the state clears the city, the results and the searched flag, and offers exactly the cities indexed for that state (none for an empty or unknown state) |
| Browse.Search | src/pages/HomePage.jsx:107-123 | without both selections nothing changes. Otherwise the search is marked as attempted and the results are the listings filtered by state and city |
| Browse.SearchResultsExact | src/pages/HomePage.jsx:118-120 | the results are exactly the listings in the selected state and city, each as often as it is stored, in stored order |
| Browse.SearchIdempotent | src/pages/HomePage.jsx:107-123 | searching again with the same selections changes nothing |
| Browse.FoundIffIndexed | src/pages/HomePage.jsx:61-75 | a search finds something exactly when the index offers the selected city under the selected state |
| Browse.OfferedCityHasListings | src/pages/HomePage.jsx:93-123 | after picking a state and one of the cities offered for it, the search never comes back empty |
| Admin.Trim | src/pages/AdminDashboard.jsx:105-112 | the trimmed string is no longer than the input, neither starts nor ends with white space, and a string already without surrounding white space is returned unchanged |
| Admin.TrimIsSlice | src/pages/AdminDashboard.jsx:74 | `trim` returns a slice of the input and cuts only white space. The result neither starts nor ends with white space |
| Admin.TrimIdempotent | src/pages/AdminDashboard.jsx:105 | trimming a trimmed string changes nothing |
| Admin.TrimEmptyIffBlank | src/pages/AdminDashboard.jsx:74 | `!s.trim()` holds exactly when the field is all white space |
| Admin.Parse | src/pages/AdminDashboard.jsx:109-111 | a blank numeric field parses to no value (NaN); any other field parses to its number |
| Admin.OpenEdit | src/pages/AdminDashboard.jsx:233-236 | the edit form starts as a copy of the listing: its id, title, state, city, location, description and image URL, and its numbers loaded as numbers |
| Admin.EditUnchangedKeepsListing | src/pages/AdminDashboard.jsx:162-172 | opening a listing for editing and saving it untouched stores the same listing again, when its text carries no surrounding white space and it has an image URL |
| Admin.Validate | src/pages/AdminDashboard.jsx:74-101 | no message exactly when all seven checks pass. Otherwise the message of the first failing check is set, and every earlier check passes |
| Admin.StudioCannotBeSavedUnchanged | src/pages/AdminDashboard.jsx:153-156 | a stored listing with 0 bedrooms, opened for editing and saved unchanged, is refused by the bedroom check |
| Admin.AddPayload | src/pages/AdminDashboard.jsx:103-114 | the id is the typed one, or the time when none is typed. Title, location and description are the trimmed fields, state and city are as chosen, and price, bedrooms and bathrooms are the parsed fields. The image is the preview, or the placeholder, and is never empty |
| Admin.EditPayload | src/pages/AdminDashboard.jsx:162-172 | the edit body never carries the id or the approval flag. It carries the trimmed title, location and description, the chosen state and city, and the parsed numbers; the image URL falls back to the placeholder |
| Admin.AddPayloadTrimmed | src/pages/AdminDashboard.jsx:105-112 | the posted title, location and description carry no surrounding white space. The title is a slice of what was typed with only white space cut around it, and is empty exactly when what was typed is all white space |
| Admin.ValidFormPassesServer | src/pages/AdminDashboard.jsx:74-114 | a form the page accepts also passes the server's corrected required-field check |
| Admin.TypedZeroBedsRefusedAsWritten | src/pages/AdminDashboard.jsx:94-110 | a form with bedrooms typed as "0" passes the page, but the server's check as written refuses its body |
| Admin.SelectFile | src/pages/AdminDashboard.jsx:54-68 | no chosen file changes nothing. A file over 5 MiB sets the size error and keeps the chosen image and preview. A smaller file becomes the image, and its data URL becomes the preview. The listings, requests, form and success note are never touched |
| Admin.SelectFileFeedsPayload | src/pages/AdminDashboard.jsx:54-113 | after a file within the limit is accepted, the add request's image URL is its data URL (or the placeholder when that is empty); a refused or missing file leaves the request body as it was |
| Admin.AddProperty | src/pages/AdminDashboard.jsx:70-127 | nothing is sent exactly when a check fails, and then only its message is shown. Success appends the answered listing, resets the form, image and preview, clears the error, sets the note and changes nothing else. A refusal changes only the error, to the server's message or else the fallback |
| Admin.ReplaceById | src/pages/AdminDashboard.jsx:175-177 | every listing with the edited id is replaced by the answer; the others stay in place |
| Admin.EditProperty | src/pages/AdminDashboard.jsx:129-187 | nothing is sent exactly when a check fails. Success replaces the listings with that id, keeps the rest in place, clears the error, sets the note and changes nothing else. A refusal changes only the error, to the server's message or else the fallback |
| Admin.RemoveById | src/pages/AdminDashboard.jsx:193 | keeps exactly the listings with another id, each as often as it is stored, in order |
| Admin.DeleteProperty | src/pages/AdminDashboard.jsx:189-202 | a request is sent exactly when the admin confirms. Success keeps exactly the other listings, each as often as stored, in order, clears the error, sets the note and changes nothing else. A failure changes only the error, to the server's message or else the fallback |
| Admin.ApproveById | src/pages/AdminDashboard.jsx:207 | listings with that id become approved and the others are kept |
| Admin.ApproveProperty | src/pages/AdminDashboard.jsx:204-214 | success marks exactly the listings with that id approved, changes nothing else about any listing, sets the note and changes nothing else on the page. A failure only sets the error |
| Admin.MarkApproved | src/pages/AdminDashboard.jsx:219-224 | every message with that id becomes approved. Groups keep their order, property, title and size, and messages keep everything but the status |
| Admin.MarkApprovedIdempotent | src/pages/AdminDashboard.jsx:219-224 | approving the same request twice is approving it once |
| Admin.ApproveRequest | src/pages/AdminDashboard.jsx:216-231 | success updates only the grouped requests and the success note. A failure only sets the error |
| Admin.AddMirrorsServer | src/pages/AdminDashboard.jsx:116-117 | after an add, the page's list equals the server's stored listings, with the corrected required-field check and with the one the server writes |
| Admin.EditMirrorsServer | src/pages/AdminDashboard.jsx:174-177 | with unique ids, after an edit the page's list equals the server's stored listings |
| Admin.EditNeverChangesIds | src/pages/AdminDashboard.jsx:162-172 | an edit body never changes a listing's id or approval |
| Admin.RemoveByIdIsSkip | src/pages/AdminDashboard.jsx:193 | with unique ids, the page's filter removes the same single listing as the server's delete |
| Admin.DeleteMirrorsServer | src/pages/AdminDashboard.jsx:189-202 | with unique ids, after a delete the page's list equals the server's stored listings |
| Admin.ApproveMirrorsServer | src/pages/AdminDashboard.jsx:204-214 | with unique ids, after an approval the page's list equals the server's stored listings |
| Admin.GroupingCommutesWithApproval | src/pages/AdminDashboard.jsx:219-224 | grouping the messages after approving one equals approving it inside the groups |
| Admin.ApproveRequestMirrorsServer | src/pages/AdminDashboard.jsx:216-231 | after approving a request, the page's grouped requests equal what a fresh `GET /api/messages` would answer |
| Shortlist.Flatten | src/pages/ShortlistPage.jsx:13-18 | the flattened list holds as many requests as the groups hold messages |
| Shortlist.FlattenMembers | src/pages/ShortlistPage.jsx:13-18 | a request is in the flattened list exactly when it is some group's message, carrying that group's title and property id |
| Shortlist.UserRequests | src/pages/ShortlistPage.jsx:13-19 | a request is kept exactly when it is flattened from the groups and carries the visitor's email, each as often as it is flattened, and the kept requests stay in order |
| Shortlist.Load | src/pages/ShortlistPage.jsx:8-29 | the server is asked exactly when a visitor is logged in. A failed request shows nothing. Otherwise exactly the flattened requests with the visitor's email are shown, each as often as flattened, in order |
| Shortlist.StatusLabel | src/pages/ShortlistPage.jsx:48-52 | the badge reads "Approved" exactly for status "approved", and "Pending" otherwise |
| Shortlist.FlattenUndoesGrouping | src/pages/ShortlistPage.jsx:13-18 | flattening the server's grouping gives back every message exactly once (a permutation). Each keeps its own entry and property id, titled by the first message about its property |
| Shortlist.ShortlistIsUsersMessages | src/pages/ShortlistPage.jsx:13-19 | the shortlist holds exactly the visitor's messages, each as often as it was sent |
| Shortlist.TitleTakenFromNewest | src/pages/ShortlistPage.jsx:16 | an older message about a property whose newer message has another title is shown under the newer title |
| Shortlist.MessageOnShortlist | src/pages/ShortlistPage.jsx:13-19 | every stored message appears on its sender's shortlist |
| Shortlist.SubmittedShowsPending | src/pages/ShortlistPage.jsx:48-52 | a message just submitted shows up on its sender's shortlist, marked Pending |

## Left out

- Express routing, CORS, JSON parsing and the multer upload are not modelled. This includes the image file filter, the 10 MB upload limit and the storage file name; the upload's name is a parameter.
- The `/health` endpoint, the MongoDB connection and the server start are not modelled.
- Mongoose casting is not modelled. A non-numeric `:id` or `propertyId`, a malformed message id, and the cast of a string id to a number are left out. Numeric fields are modelled as integers or absent.
- `parseFloat` and fractional prices are not modelled: prices are integers.
- Server.UpdateProperty: runs only the schema's required-string check on the merged document. Number casts and other schema rules are left out.
- Admin.Parse: a blank number is modelled as no value. On `PUT` JSON would send NaN as `null`, which `Object.assign` would store; the model's edit body leaves the field out instead. `Validate` refuses a blank number before any request is sent, so no reachable request differs.
- Server 500 answers carry `err.message`. The model keeps only which failure it was (`Fault`), not its text.
- The order MongoDB gives messages with equal timestamps is not fixed by `server/index.js`. The model's sort keeps stored order among equal timestamps.
- Model.HashMatchesOnlyItsPassword: bcrypt is idealised as collision-free, so a digest matches only its own password. Real bcrypt reads only the first 72 bytes of a password, so two passwords that agree on those bytes match the same digest; that truncation is not modelled. Server.RegisterThenLogin and Server.Login rest on the same idealisation.
- Admin.ValidFormPassesServer: excludes an id typed as "0". The page sends the typed id as a string, which the server's `!id` sees as truthy; the model keeps ids numeric, where 0 is falsy.
- HomePage's index is keyed by state through a plain object. The model keeps states in first-seen order; `HomePage.jsx` would list array-index-like state names first, and a state named like an `Object.prototype` property would misbehave. Neither is modelled.
- A failed listing fetch on the browsing page leaves the listing list empty. This is `BuildLocations` and `Search` over the empty sequence; the error toast is not modelled.
- Toasts, timers that clear messages, modal flags, loading spinners, console logging and all rendering are not modelled.
- The dashboard's mount fetches of listings and requests only copy the server's answers. The mirror lemmas start from that state (`d.properties == s.listings`) instead of modelling the fetch.
- `FileReader` is asynchronous. The model sets the preview together with the chosen file.
- The edit form's field-by-field input handlers are not modelled separately. An `EditForm` is the state they produce.
- Other pages and components are not part of this model: PropertyDetailsPage, LoginPage, `src/lib/auth.js`, `App.jsx`, Navbar and Footer.
- Server.ListMessagesGrouped: answers groups in first-encounter order, the corrected behaviour. The order `server/index.js` produces is `Grouping.GroupByPropertyAsWritten` (see Findings).

## Findings

| source | as written | input that shows it | evidently intended | confidence | as-written member | corrected member |
|---|---|---|---|---|---|---|
| server/index.js:274 | `Object.values(grouped)` lists groups whose property id is an array index (0 to 2^32-2) first, in ascending id order | messages about property 2 at time 20 and property 1 at time 10: property 1's group comes first although property 2's message is newer | groups in the order their property is first met in the newest-first scan | medium, not executed | Grouping.GroupByPropertyAsWritten, Grouping.AsWrittenBreaksFirstEncounterOrder | Grouping.GroupByProperty, Grouping.GroupByPropertyCorrect |
| server/index.js:160 | `!beds \|\| !baths` refuses a listing with 0 bedrooms or 0 bathrooms | the admin types "0" bedrooms, which the page's `beds < 0` check accepts, and `parseInt` sends 0; the server answers 400 | 0 bedrooms or bathrooms accepted (a studio), as the page allows | medium, not executed | Server.CreatePropertyAsWritten, Server.ZeroBedroomsRefusedAsWritten, Admin.TypedZeroBedsRefusedAsWritten | Server.CreateProperty, Admin.ValidFormPassesServer |

=== FILE: admin.dfy ===
/** The admin dashboard: the add and edit forms with their validation and
    request payloads, and the local copies of the listing and request lists
    that the page updates after each successful request instead of
    fetching them again.

    A request's outcome is a parameter (`Reply` or `Outcome`); the
    `...MirrorsServer` lemmas feed in the answer of the corresponding server
    handler and show that the page's local list then equals what the server
    stores. */
module Admin {
  import opened Seqs
  import opened Model
  import opened Grouping
  import Server

  // ---------------------------------------------------------------------
  // String.prototype.trim

  /** The code points JavaScript counts as WhiteSpace or LineTerminator,
      which `trim` removes. */
  predicate IsSpace(c: char)
  {
    var n := c as int;
    || n == 0x09 || n == 0x0A || n == 0x0B || n == 0x0C || n == 0x0D || n == 0x20
    || n == 0xA0 || n == 0x1680 || (0x2000 <= n <= 0x200A)
    || n == 0x2028 || n == 0x2029 || n == 0x202F || n == 0x205F || n == 0x3000 || n == 0xFEFF
  }

  /** Drops leading white space. */
  function TrimStart(s: string): (r: string)
    ensures |r| <= |s|
  {
    if s != [] && IsSpace(s[0]) then TrimStart(s[1..]) else s
  }

  /** Drops trailing white space. */
  function TrimEnd(s: string): (r: string)
    ensures |r| <= |s|
  {
    if s != [] && IsSpace(s[|s| - 1]) then TrimEnd(s[..|s| - 1]) else s
  }

  /** `String.prototype.trim`: the result neither starts nor ends with white
      space, and a string that does neither is kept as it is (see
      `TrimIsSlice` for what is cut). */
  function Trim(s: string): (r: string)
    ensures |r| <= |s|
    ensures r == [] || (!IsSpace(r[0]) && !IsSpace(r[|r| - 1]))
    ensures s == [] || (!IsSpace(s[0]) && !IsSpace(s[|s| - 1])) ==> r == s
  {
    TrimStartFacts(s);
    TrimEndFacts(TrimStart(s));
    TrimEnd(TrimStart(s))
  }

  /** `TrimStart` keeps a suffix, drops only white space, and stops at the
      first other character. */
  lemma {:induction false} TrimStartFacts(s: string)
    ensures var r := TrimStart(s);
      && r == s[|s| - |r|..]
      && (forall k :: 0 <= k < |s| - |r| ==> IsSpace(s[k]))
      && (r == [] || !IsSpace(r[0]))
  {
    if s != [] && IsSpace(s[0]) {
      TrimStartFacts(s[1..]);
      var r := TrimStart(s);
      assert forall k :: 1 <= k < |s| - |r| ==> s[k] == s[1..][k - 1];
    }
  }

  /** `TrimEnd` keeps a prefix, drops only white space, and stops at the
      last other character. */
  lemma {:induction false} TrimEndFacts(s: string)
    ensures var r := TrimEnd(s);
      && r == s[..|r|]
      && (forall k :: |r| <= k < |s| ==> IsSpace(s[k]))
      && (r == [] || !IsSpace(r[|r| - 1]))
  {
    if s != [] && IsSpace(s[|s| - 1]) {
      TrimEndFacts(s[..|s| - 1]);
      var r := TrimEnd(s);
      assert forall k :: |r| <= k < |s| - 1 ==> s[k] == s[..|s| - 1][k];
    }
  }

  /** `trim` cuts a run of white space off each end and nothing more: the
      result is a slice of the input, everything cut is white space, and the
      result neither starts nor ends with white space. */
  lemma TrimIsSlice(s: string) returns (i: nat, j: nat)
    ensures i <= j <= |s| && Trim(s) == s[i..j]
    ensures forall k :: 0 <= k < i || j <= k < |s| ==> IsSpace(s[k])
    ensures Trim(s) == [] || (!IsSpace(Trim(s)[0]) && !IsSpace(Trim(s)[|Trim(s)| - 1]))
  {
    var a := TrimStart(s);
    var b := TrimEnd(a);
    TrimStartFacts(s);
    TrimEndFacts(a);
    i := |s| - |a|;
    j := i + |b|;
    assert a == s[i..];
    assert forall k :: j <= k < |s| ==> s[k] == a[k - i];
    assert b == s[i..j];
    if b != [] {
      assert b[0] == a[0];
    }
  }

  /** Trimming twice is trimming once. */
  lemma TrimIdempotent(s: string)
    ensures Trim(Trim(s)) == Trim(s)
  {
    var t := Trim(s);
    var _, _ := TrimIsSlice(s);
    assert TrimStart(t) == t;
    assert TrimEnd(t) == t;
  }

  /** A field fails a `!x.trim()` check exactly when it is all white space. */
  lemma TrimEmptyIffBlank(s: string)
    ensures Trim(s) == "" <==> forall k :: 0 <= k < |s| ==> IsSpace(s[k])
  {
    var i, j := TrimIsSlice(s);
    if Trim(s) != "" {
      assert s[i] == Trim(s)[0];
    }
  }

  // ---------------------------------------------------------------------
  // Forms

  /** A numeric form field: left blank, typed by the admin (a non-empty
      input string, truthy even when it reads "0"), or loaded from a stored
      listing into the edit form (a number, falsy when 0). */
  datatype NumField = Blank | Typed(n: int) | Loaded(n: int)

  /** JavaScript truthiness of the field's value. */
  predicate Present(f: NumField)
  {
    match f
    case Blank => false
    case Typed(_) => true
    case Loaded(n) => n != 0
  }

  /** `parseFloat` / `parseInt` of the field: a blank field parses to NaN,
      modelled as no value. On `POST` the server's `!price` check treats it
      like an absent field; a `PUT` never carries it, because `Validate`
      refuses a blank number before anything is sent. */
  function Parse(f: NumField): (r: Option<int>)
    ensures r.None? <==> f.Blank?
    ensures r.Some? ==> r.value == f.n
  {
    if f.Blank? then None else Some(f.n)
  }

  /** The inputs the add and the edit form share. */
  datatype Fields = Fields(
    title: string,
    state: string,
    city: string,
    location: string,
    price: NumField,
    beds: NumField,
    baths: NumField,
    imageDesc: string)

  /** The add form (`newProperty`): the id is typed like the other fields. */
  datatype NewForm = NewForm(id: NumField, fields: Fields)

  /** The edit form (`editProperty`): a copy of a stored listing; the id has
      no input and only names the listing to update. */
  datatype EditForm = EditForm(id: int, fields: Fields, imageUrl: string)

  const EmptyForm: NewForm := NewForm(Blank, Fields("", "", "", "", Blank, Blank, Blank, ""))

  /** `openEditModal`: the edit form starts as a copy of the listing. */
  function OpenEdit(l: Listing): (e: EditForm)
    ensures e.id == l.id && e.imageUrl == l.imageUrl
    ensures e.fields.title == l.title && e.fields.state == l.state && e.fields.city == l.city
    ensures e.fields.location == l.location && e.fields.imageDesc == l.imageDesc
    ensures e.fields.price == Loaded(l.price) && e.fields.beds == Loaded(l.beds) && e.fields.baths == Loaded(l.baths)
  {
    EditForm(l.id, Fields(l.title, l.state, l.city, l.location,
                          Loaded(l.price), Loaded(l.beds), Loaded(l.baths), l.imageDesc), l.imageUrl)
  }

  /** Opening a listing for editing and saving it untouched stores the same
      listing again, when its text fields carry no surrounding white space
      and it has an image URL. */
  lemma EditUnchangedKeepsListing(l: Listing)
    requires Trim(l.title) == l.title && Trim(l.location) == l.location && Trim(l.imageDesc) == l.imageDesc
    requires l.imageUrl != ""
    ensures Server.Merge(l, EditPayload(OpenEdit(l))) == l
  {
  }

  // ---------------------------------------------------------------------
  // Validation

  const CheckCount: nat := 7

  /** The message of each check, in the order the handlers run them. */
  const ValidationMessages: seq<string> := [
    "Property title is required.",
    "State is required.",
    "City is required.",
    "Location is required.",
    "Valid price is required.",
    "Valid number of bedrooms is required.",
    "Valid number of bathrooms is required."]

  /** The `k`-th check: title, state, city, location, price, beds, baths. */
  predicate Passes(f: Fields, k: nat)
  {
    if k == 0 then Trim(f.title) != ""
    else if k == 1 then f.state != ""
    else if k == 2 then f.city != ""
    else if k == 3 then Trim(f.location) != ""
    else if k == 4 then Present(f.price) && f.price.n > 0
    else if k == 5 then Present(f.beds) && f.beds.n >= 0
    else Present(f.baths) && f.baths.n >= 0
  }

  /** The validation block of `handleAddProperty` and `handleEditProperty`:
      the message of the first failing check, or `None` when all pass. */
  function Validate(f: Fields): (r: Option<string>)
    ensures r.None? <==> forall k :: 0 <= k < CheckCount ==> Passes(f, k)
    ensures r.Some? ==> r.value in ValidationMessages
    ensures forall k :: 0 <= k < CheckCount && r == Some(ValidationMessages[k]) ==>
      !Passes(f, k) && forall j :: 0 <= j < k ==> Passes(f, j)
  {
    if Trim(f.title) == "" then assert !Passes(f, 0); Some("Property title is required.")
    else if f.state == "" then assert !Passes(f, 1); Some("State is required.")
    else if f.city == "" then assert !Passes(f, 2); Some("City is required.")
    else if Trim(f.location) == "" then assert !Passes(f, 3); Some("Location is required.")
    else if !Present(f.price) || f.price.n <= 0 then assert !Passes(f, 4); Some("Valid price is required.")
    else if !Present(f.beds) || f.beds.n < 0 then assert !Passes(f, 5); Some("Valid number of bedrooms is required.")
    else if !Present(f.baths) || f.baths.n < 0 then assert !Passes(f, 6); Some("Valid number of bathrooms is required.")
    else None
  }

  /** Opening a studio (0 bedrooms) for editing and saving it unchanged is
      refused: the loaded 0 is falsy, so the bedroom check fails. */
  lemma StudioCannotBeSavedUnchanged(l: Listing)
    requires l.beds == 0
    requires forall k :: 0 <= k < 5 ==> Passes(OpenEdit(l).fields, k)
    ensures Validate(OpenEdit(l).fields) == Some("Valid number of bedrooms is required.")
  {
    assert Passes(OpenEdit(l).fields, 0) && Passes(OpenEdit(l).fields, 1) && Passes(OpenEdit(l).fields, 2);
    assert Passes(OpenEdit(l).fields, 3) && Passes(OpenEdit(l).fields, 4);
  }

  // ---------------------------------------------------------------------
  // Payloads

  /** The body `handleAddProperty` posts; `now` stands for `Date.now()`. */
  function AddPayload(form: NewForm, preview: string, now: int): (b: ListingFields)
    ensures b.id == if Present(form.id) then Some(form.id.n) else Some(now)
    ensures b.imageUrl == Or(preview, Placeholder) && b.imageUrl != ""
    ensures b.state == form.fields.state && b.city == form.fields.city
    ensures b.title == Trim(form.fields.title) && b.location == Trim(form.fields.location)
    ensures b.imageDesc == Trim(form.fields.imageDesc)
    ensures b.price == Parse(form.fields.price) && b.beds == Parse(form.fields.beds)
    ensures b.baths == Parse(form.fields.baths)
  {
    var f := form.fields;
    ListingFields(
      if Present(form.id) then Parse(form.id) else Some(now),
      Trim(f.title), f.state, f.city, Trim(f.location),
      Parse(f.price), Parse(f.beds), Parse(f.baths),
      Trim(f.imageDesc), Or(preview, Placeholder))
  }

  /** The body `handleEditProperty` puts: every edited field, never the id
      and never the approval flag. */
  function EditPayload(e: EditForm): (p: ListingPatch)
    ensures p.id.None? && p.approved.None?
    ensures p.title == Some(Trim(e.fields.title)) && p.location == Some(Trim(e.fields.location))
    ensures p.state == Some(e.fields.state) && p.city == Some(e.fields.city)
    ensures p.imageDesc == Some(Trim(e.fields.imageDesc))
    ensures p.price == Parse(e.fields.price) && p.beds == Parse(e.fields.beds) && p.baths == Parse(e.fields.baths)
    ensures p.imageUrl == Some(Or(e.imageUrl, Placeholder))
  {
    var f := e.fields;
    ListingPatch(
      None, Some(Trim(f.title)), Some(f.state), Some(f.city), Some(Trim(f.location)),
      Parse(f.price), Parse(f.beds), Parse(f.baths),
      Some(Trim(f.imageDesc)), Some(Or(e.imageUrl, Placeholder)), None)
  }

  /** The add payload's free-text fields carry no surrounding white space,
      and are what the admin typed with only surrounding white space cut. */
  lemma AddPayloadTrimmed(form: NewForm, preview: string, now: int)
    ensures var b := AddPayload(form, preview, now);
      && Trim(b.title) == b.title && Trim(b.location) == b.location && Trim(b.imageDesc) == b.imageDesc
      && (exists i, j :: 0 <= i <= j <= |form.fields.title| && b.title == form.fields.title[i..j]
            && (forall k :: 0 <= k < i || j <= k < |form.fields.title| ==> IsSpace(form.fields.title[k])))
      && (b.title == "" <==> forall k :: 0 <= k < |form.fields.title| ==> IsSpace(form.fields.title[k]))
  {
    TrimIdempotent(form.fields.title);
    TrimIdempotent(form.fields.location);
    TrimIdempotent(form.fields.imageDesc);
    TrimEmptyIffBlank(form.fields.title);
    var i, j := TrimIsSlice(form.fields.title);
  }

  /** A form that passes the page's checks also passes the server's
      required-field check, once the server allows 0 bedrooms and bathrooms:
      the trimmed strings stay non-empty and the numbers are present. */
  lemma ValidFormPassesServer(form: NewForm, preview: string, now: int)
    requires Validate(form.fields).None?
    requires form.id != Typed(0) && now > 0
    ensures Server.RequiredFields(AddPayload(form, preview, now))
  {
    var f := form.fields;
    var b := AddPayload(form, preview, now);
    assert Passes(f, 0) && Passes(f, 1) && Passes(f, 2) && Passes(f, 3);
    assert Passes(f, 4) && Passes(f, 5) && Passes(f, 6);
    assert b.title == Trim(f.title) && b.location == Trim(f.location);
    assert Truthy(b.id);
    assert Truthy(b.price) && b.beds.Some? && b.baths.Some?;
  }

  /** With the server's check as written, a studio the page accepts (beds
      typed as "0") is refused. */
  lemma TypedZeroBedsRefusedAsWritten(form: NewForm, preview: string, now: int)
    requires Validate(form.fields).None? && form.fields.beds == Typed(0)
    ensures !Server.RequiredFieldsAsWritten(AddPayload(form, preview, now))
  {
  }

  // ---------------------------------------------------------------------
  // The dashboard and its handlers

  /** A chosen image file: its size in bytes and the data URL a
      `FileReader` produces for it. */
  datatype File = File(size: int, dataUrl: string)

  /** The page state the handlers update (modal flags and the transient
      timers are not modelled; "" stands for a null message). */
  datatype Dashboard = Dashboard(
    properties: seq<Listing>,
    applications: seq<Group>,
    form: NewForm,
    image: Option<File>,
    preview: string,
    error: string,
    success: string)

  /** How a request answered with a listing ended: the listing, or the
      response's `message` ("" when there is none). */
  datatype Reply = Answered(listing: Listing) | Refused(message: string)

  /** How a request whose answer the page ignores ended. */
  datatype Outcome = Done | Failed(message: string)

  /** The page after a handler, and the request it sent, if any. */
  datatype Submitted<R> = Submitted(after: Dashboard, sent: Option<R>)

  const MaxImageBytes: int := 5 * 1024 * 1024
  const ImageTooLarge: string := "Image size must be less than 5MB."
  const AddedNote: string := "Property added successfully!"
  const AddFailed: string := "Failed to add property. Please try again."
  const UpdatedNote: string := "Property updated successfully!"
  const UpdateFailed: string := "Failed to update property. Please try again."
  const DeletedNote: string := "Property deleted successfully!"
  const DeleteFailed: string := "Failed to delete property. Please try again."
  const ApprovedNote: string := "Property approved!"
  const ApproveFailed: string := "Failed to approve property."
  const RequestApprovedNote: string := "Request approved!"
  const RequestApproveFailed: string := "Failed to approve request."

  /** `handleFileChange`: no chosen file changes nothing; an image over
      5 MiB is refused with an error and leaves the chosen image and its
      preview as they were. */
  function SelectFile(d: Dashboard, file: Option<File>): (d': Dashboard)
    ensures file.None? ==> d' == d
    ensures d'.properties == d.properties && d'.applications == d.applications && d'.form == d.form
    ensures d'.success == d.success
    ensures d'.image != d.image || d'.preview != d.preview ==> file.Some? && file.value.size <= MaxImageBytes
    ensures file.Some? && file.value.size > MaxImageBytes ==> d'.error == ImageTooLarge
    ensures file.Some? && file.value.size <= MaxImageBytes ==>
      d'.image == file && d'.preview == file.value.dataUrl && d'.error == d.error
  {
    match file
    case None => d
    case Some(f) =>
      if f.size > MaxImageBytes then d.(error := ImageTooLarge)
      else d.(image := file, preview := f.dataUrl)
  }

  /** The chosen image reaches the add request: after a file within the
      limit is accepted, the posted image URL is its data URL (or the
      placeholder for an empty one); a refused or missing file leaves the
      request body as it was. */
  lemma SelectFileFeedsPayload(d: Dashboard, file: Option<File>, now: int)
    ensures var d' := SelectFile(d, file);
      && (file.Some? && file.value.size <= MaxImageBytes ==>
            AddPayload(d'.form, d'.preview, now).imageUrl == Or(file.value.dataUrl, Placeholder))
      && (file.None? || file.value.size > MaxImageBytes ==>
            AddPayload(d'.form, d'.preview, now) == AddPayload(d.form, d.preview, now))
  {
  }

  /** `handleAddProperty`. */
  function AddProperty(d: Dashboard, now: int, reply: Reply): (r: Submitted<ListingFields>)
    ensures r.sent.None? <==> Validate(d.form.fields).Some?
    ensures r.sent.None? ==> r.after == d.(error := Validate(d.form.fields).value)
    ensures r.sent.Some? ==> r.sent.value == AddPayload(d.form, d.preview, now)
    ensures r.sent.Some? && reply.Answered? ==>
      && r.after.properties == d.properties + [reply.listing]
      && r.after == d.(properties := r.after.properties, form := EmptyForm, image := None, preview := "",
                       error := "", success := AddedNote)
    ensures r.sent.Some? && reply.Refused? ==> r.after == d.(error := Or(reply.message, AddFailed))
    ensures reply.Refused? ==> r.after.properties == d.properties && r.after.error != ""
  {
    var v := Validate(d.form.fields);
    if v.Some? then Submitted(d.(error := v.value), None)
    else
      var payload := AddPayload(d.form, d.preview, now);
      match reply
      case Answered(l) =>
        Submitted(d.(properties := d.properties + [l], form := EmptyForm, image := None, preview := "",
                     error := "", success := AddedNote), Some(payload))
      case Refused(m) => Submitted(d.(error := Or(m, AddFailed)), Some(payload))
  }

  function Replacing(id: int, l: Listing): Listing -> Listing
  {
    (p: Listing) => if p.id == id then l else p
  }

  /** `prev.map(prop => prop.id === id ? l : prop)`. */
  function ReplaceById(ls: seq<Listing>, id: int, l: Listing): (r: seq<Listing>)
    ensures |r| == |ls|
    ensures forall i :: 0 <= i < |ls| ==> r[i] == if ls[i].id == id then l else ls[i]
  {
    MapSeq(ls, Replacing(id, l))
  }

  /** `handleEditProperty`. */
  function EditProperty(d: Dashboard, e: EditForm, reply: Reply): (r: Submitted<ListingPatch>)
    ensures r.sent.None? <==> Validate(e.fields).Some?
    ensures r.sent.None? ==> r.after == d.(error := Validate(e.fields).value)
    ensures r.sent.Some? ==> r.sent.value == EditPayload(e)
    ensures r.sent.Some? && reply.Answered? ==>
      && |r.after.properties| == |d.properties|
      && (forall i :: 0 <= i < |d.properties| && d.properties[i].id != e.id ==>
            r.after.properties[i] == d.properties[i])
      && (forall i :: 0 <= i < |d.properties| && d.properties[i].id == e.id ==>
            r.after.properties[i] == reply.listing)
      && r.after == d.(properties := r.after.properties, error := "", success := UpdatedNote)
    ensures r.sent.Some? && reply.Refused? ==> r.after == d.(error := Or(reply.message, UpdateFailed))
    ensures reply.Refused? ==> r.after.properties == d.properties && r.after.error != ""
  {
    var v := Validate(e.fields);
    if v.Some? then Submitted(d.(error := v.value), None)
    else
      match reply
      case Answered(l) =>
        Submitted(d.(properties := ReplaceById(d.properties, e.id, l), error := "", success := UpdatedNote),
                  Some(EditPayload(e)))
      case Refused(m) => Submitted(d.(error := Or(m, UpdateFailed)), Some(EditPayload(e)))
  }

  function IdIsNot(id: int): Listing -> bool
  {
    (p: Listing) => p.id != id
  }

  /** `prev.filter(property => property.id !== id)`. */
  function RemoveById(ls: seq<Listing>, id: int): (r: seq<Listing>)
    ensures forall l :: l in r <==> l in ls && l.id != id
    ensures forall l :: multiset(r)[l] == if l.id != id then multiset(ls)[l] else 0
    ensures SubsequenceOf(r, ls)
  {
    FilterMembers(ls, IdIsNot(id));
    FilterCount(ls, IdIsNot(id));
    FilterIsSubsequence(ls, IdIsNot(id));
    Filter(ls, IdIsNot(id))
  }

  /** `handleDeleteProperty`: nothing is sent unless the admin confirms. */
  function DeleteProperty(d: Dashboard, id: int, confirmed: bool, outcome: Outcome): (r: Submitted<int>)
    ensures r.sent.Some? <==> confirmed
    ensures !confirmed ==> r.after == d
    ensures r.sent.Some? ==> r.sent.value == id
    ensures confirmed && outcome.Done? ==>
      && (forall l :: l in r.after.properties <==> l in d.properties && l.id != id)
      && (forall l :: multiset(r.after.properties)[l] == if l.id != id then multiset(d.properties)[l] else 0)
      && SubsequenceOf(r.after.properties, d.properties)
      && r.after == d.(properties := r.after.properties, error := "", success := DeletedNote)
    ensures confirmed && outcome.Failed? ==> r.after == d.(error := Or(outcome.message, DeleteFailed))
    ensures outcome.Failed? ==> r.after.properties == d.properties
  {
    if !confirmed then Submitted(d, None)
    else
      match outcome
      case Done =>
        Submitted(d.(properties := RemoveById(d.properties, id), error := "", success := DeletedNote), Some(id))
      case Failed(m) => Submitted(d.(error := Or(m, DeleteFailed)), Some(id))
  }

  function Approving(id: int): Listing -> Listing
  {
    (p: Listing) => if p.id == id then p.(approved := true) else p
  }

  /** `prev.map(prop => prop.id === id ? { ...prop, approved: true } : prop)`. */
  function ApproveById(ls: seq<Listing>, id: int): (r: seq<Listing>)
    ensures |r| == |ls|
    ensures forall i :: 0 <= i < |ls| ==> r[i] == if ls[i].id == id then ls[i].(approved := true) else ls[i]
  {
    MapSeq(ls, Approving(id))
  }

  /** `handleApproveProperty`: only the listings with that id become
      approved; everything else about them and every other listing is kept. */
  function ApproveProperty(d: Dashboard, id: int, outcome: Outcome): (r: Submitted<int>)
    ensures r.sent == Some(id)
    ensures outcome.Done? ==>
      && |r.after.properties| == |d.properties|
      && (forall i :: 0 <= i < |d.properties| ==>
            && r.after.properties[i].(approved := d.properties[i].approved) == d.properties[i]
            && r.after.properties[i].approved == (d.properties[i].approved || d.properties[i].id == id))
      && r.after == d.(properties := r.after.properties, success := ApprovedNote)
    ensures outcome.Failed? ==> r.after == d.(error := ApproveFailed)
  {
    match outcome
    case Done => Submitted(d.(properties := ApproveById(d.properties, id), success := ApprovedNote), Some(id))
    case Failed(_) => Submitted(d.(error := ApproveFailed), Some(id))
  }

  function MarkEntry(mid: int): Entry -> Entry
  {
    (e: Entry) => if e.mid == mid then e.(status := StatusApproved) else e
  }

  function MarkGroup(mid: int): Group -> Group
  {
    (g: Group) => g.(messages := MapSeq(g.messages, MarkEntry(mid)))
  }

  /** The update `handleApproveRequest` applies to the grouped requests:
      every message with that id, in every group, becomes approved; groups
      keep their order, property, title and number of messages. */
  function MarkApproved(gs: seq<Group>, mid: int): (r: seq<Group>)
    ensures |r| == |gs|
    ensures forall i :: 0 <= i < |gs| ==>
      && r[i].propertyId == gs[i].propertyId && r[i].propertyTitle == gs[i].propertyTitle
      && |r[i].messages| == |gs[i].messages|
      && (forall j :: 0 <= j < |gs[i].messages| ==>
            && r[i].messages[j].(status := gs[i].messages[j].status) == gs[i].messages[j]
            && r[i].messages[j].status ==
                 if gs[i].messages[j].mid == mid then StatusApproved else gs[i].messages[j].status)
  {
    MapSeq(gs, MarkGroup(mid))
  }

  /** Approving the same request twice is approving it once. */
  lemma MarkApprovedIdempotent(gs: seq<Group>, mid: int)
    ensures MarkApproved(MarkApproved(gs, mid), mid) == MarkApproved(gs, mid)
  {
    var once := MarkApproved(gs, mid);
    var twice := MarkApproved(once, mid);
    forall i | 0 <= i < |gs| ensures twice[i] == once[i] {
      assert twice[i].messages == once[i].messages;
    }
  }

  /** `handleApproveRequest`. */
  function ApproveRequest(d: Dashboard, mid: int, outcome: Outcome): (r: Submitted<int>)
    ensures r.sent == Some(mid)
    ensures outcome.Done? ==>
      r.after == d.(applications := MarkApproved(d.applications, mid), success := RequestApprovedNote)
    ensures outcome.Failed? ==> r.after == d.(error := RequestApproveFailed)
  {
    match outcome
    case Done => Submitted(d.(applications := MarkApproved(d.applications, mid), success := RequestApprovedNote), Some(mid))
    case Failed(_) => Submitted(d.(error := RequestApproveFailed), Some(mid))
  }

  // ---------------------------------------------------------------------
  // The page's local lists agree with the server after each request.

  /** What the page learns from a response that carries a listing. */
  function ReplyOf(r: Server.Response): Reply
  {
    if 200 <= r.status < 300 && r.body.Doc? then Answered(r.body.listing)
    else Refused(if r.body.Note? then r.body.message else "")
  }

  /** What the page learns from a response whose body it ignores. */
  function OutcomeOf(r: Server.Response): Outcome
  {
    if 200 <= r.status < 300 then Done else Failed(if r.body.Note? then r.body.message else "")
  }

  /** Adding through the page leaves its list equal to the stored one:
      appended on success, untouched on a refusal or when nothing is sent;
      this holds with the corrected required-field check and with the one
      `server/index.js` writes. */
  lemma AddMirrorsServer(d: Dashboard, s: Server.Store, now: int)
    requires d.properties == s.listings
    ensures var h := Server.CreateProperty(s, AddPayload(d.form, d.preview, now), None);
      var r := AddProperty(d, now, ReplyOf(h.response));
      r.after.properties == (if r.sent.Some? then h.store.listings else s.listings)
    ensures var h := Server.CreatePropertyAsWritten(s, AddPayload(d.form, d.preview, now), None);
      var r := AddProperty(d, now, ReplyOf(h.response));
      r.after.properties == (if r.sent.Some? then h.store.listings else s.listings)
  {
  }

  /** Under unique ids, replacing by id is replacing the one listing found. */
  lemma ReplaceByIdIsUpdate(ls: seq<Listing>, i: nat, l: Listing)
    requires i < |ls| && Server.UniqueListingIds(ls)
    ensures ReplaceById(ls, ls[i].id, l) == ls[i := l]
  {
    var r := ReplaceById(ls, ls[i].id, l);
    forall j | 0 <= j < |ls| ensures r[j] == ls[i := l][j] {
      if j != i {
        assert ls[j].id != ls[i].id;
      }
    }
  }

  /** Editing through the page leaves its list equal to the stored one. */
  lemma EditMirrorsServer(d: Dashboard, s: Server.Store, e: EditForm)
    requires d.properties == s.listings && Server.UniqueListingIds(s.listings)
    ensures var h := Server.UpdateProperty(s, e.id, EditPayload(e));
      var r := EditProperty(d, e, ReplyOf(h.response));
      r.after.properties == (if r.sent.Some? then h.store.listings else s.listings)
  {
    UpdateReplyMirrors(s, e.id, EditPayload(e));
  }

  /** Whatever the patch, replacing by id with the listing the update
      answers gives the stored list, and a refusal leaves the store as it
      was. */
  lemma UpdateReplyMirrors(s: Server.Store, id: int, patch: ListingPatch)
    requires Server.UniqueListingIds(s.listings)
    ensures var h := Server.UpdateProperty(s, id, patch);
      match ReplyOf(h.response)
      case Answered(l) => ReplaceById(s.listings, id, l) == h.store.listings
      case Refused(_) => h.store == s
  {
    var h := Server.UpdateProperty(s, id, patch);
    if h.response.status == 200 {
      var ls := s.listings;
      var i := Server.FindListing(ls, id);
      ReplaceByIdIsUpdate(ls, i, Server.Merge(ls[i], patch));
    }
  }

  /** An edit never changes a listing's id or approval, so the edit can
      neither collide with another listing's id nor approve a listing. */
  lemma EditNeverChangesIds(s: Server.Store, e: EditForm)
    ensures var ls' := Server.UpdateProperty(s, e.id, EditPayload(e)).store.listings;
      && |ls'| == |s.listings|
      && forall i :: 0 <= i < |ls'| ==> ls'[i].id == s.listings[i].id && ls'[i].approved == s.listings[i].approved
  {
  }

  /** Under unique ids, removing by id is removing the one listing found. */
  lemma RemoveByIdIsSkip(ls: seq<Listing>, i: nat)
    requires i < |ls| && Server.UniqueListingIds(ls)
    ensures RemoveById(ls, ls[i].id) == ls[..i] + ls[i+1..]
  {
    var before, after := ls[..i], ls[i+1..];
    var p := IdIsNot(ls[i].id);
    assert ls == before + [ls[i]] + after;
    assert Filter(before, p) == before by {
      OthersKept(ls, i, 0, i);
      assert ls[0..i] == before;
    }
    assert Filter(after, p) == after by {
      OthersKept(ls, i, i + 1, |ls|);
      assert ls[i + 1..|ls|] == after;
    }
    FilterSkipsOne(before, ls[i], after, p);
  }

  lemma FilterSkipsOne(before: seq<Listing>, x: Listing, after: seq<Listing>, p: Listing -> bool)
    requires Filter(before, p) == before && Filter(after, p) == after && !p(x)
    ensures Filter(before + [x] + after, p) == before + after
  {
    var tail := [x] + after;
    assert before + [x] + after == before + tail;
    assert Filter(tail, p) == after by {
      FilterAppend([x], after, p);
      FilterDropsOne(x, p);
      assert [] + after == after;
    }
    FilterAppend(before, tail, p);
  }

  /** Every listing in `ls[lo..hi]`, away from `i`, survives removing `ls[i]`'s id. */
  lemma OthersKept(ls: seq<Listing>, i: nat, lo: nat, hi: nat)
    requires i < |ls| && Server.UniqueListingIds(ls)
    requires lo <= hi <= |ls| && (hi <= i || i < lo)
    ensures Filter(ls[lo..hi], IdIsNot(ls[i].id)) == ls[lo..hi]
  {
    var part := ls[lo..hi];
    forall k | 0 <= k < |part| ensures IdIsNot(ls[i].id)(part[k]) {
      assert part[k] == ls[lo + k];
    }
    FilterAll(part, IdIsNot(ls[i].id));
  }

  lemma FilterDropsOne(l: Listing, p: Listing -> bool)
    requires !p(l)
    ensures Filter([l], p) == []
  {
    assert [l][1..] == [];
  }

  /** Deleting through the page leaves its list equal to the stored one. */
  lemma DeleteMirrorsServer(d: Dashboard, s: Server.Store, id: int, confirmed: bool)
    requires d.properties == s.listings && Server.UniqueListingIds(s.listings)
    ensures var h := Server.DeleteProperty(s, id);
      var r := DeleteProperty(d, id, confirmed, OutcomeOf(h.response));
      r.after.properties == (if confirmed then h.store.listings else s.listings)
  {
    var h := Server.DeleteProperty(s, id);
    if confirmed && h.response.status == 200 {
      var i := Server.FindListing(s.listings, id);
      RemoveByIdIsSkip(s.listings, i);
    }
  }

  /** Approving through the page leaves its list equal to the stored one. */
  lemma ApproveMirrorsServer(d: Dashboard, s: Server.Store, id: int)
    requires d.properties == s.listings && Server.UniqueListingIds(s.listings)
    ensures var h := Server.ApproveProperty(s, id);
      ApproveProperty(d, id, OutcomeOf(h.response)).after.properties == h.store.listings
  {
    var h := Server.ApproveProperty(s, id);
    if h.response.status == 200 {
      var ls := s.listings;
      var i := Server.FindListing(ls, id);
      assert ApproveById(ls, id) == ls[i := ls[i].(approved := true)];
    } else if s.online {
      assert forall l :: l in s.listings ==> l.id != id;
      assert ApproveById(s.listings, id) == s.listings;
    }
  }

  function ApprovingMessage(mid: int): Message -> Message
  {
    (m: Message) => if m.mid == mid then m.(status := StatusApproved) else m
  }

  /** Under unique ids, the server's single-message update is the map over
      all messages. */
  lemma ApproveOneIsApproveAll(ms: seq<Message>, i: nat)
    requires i < |ms| && Server.UniqueMessageIds(ms)
    ensures ms[i := ms[i].(status := StatusApproved)] == MapSeq(ms, ApprovingMessage(ms[i].mid))
  {
  }

  lemma MarkApprovedCons(g: Group, gs: seq<Group>, mid: int)
    ensures MarkApproved([g] + gs, mid) == [MarkGroup(mid)(g)] + MarkApproved(gs, mid)
  {
  }

  lemma MarkApprovedTail(gs: seq<Group>, mid: int)
    requires gs != []
    ensures MarkApproved(gs, mid) == [MarkGroup(mid)(gs[0])] + MarkApproved(gs[1..], mid)
  {
    assert gs == [gs[0]] + gs[1..];
    MarkApprovedCons(gs[0], gs[1..], mid);
  }

  lemma NewGroupCommutesWithApproval(m: Message, mid: int)
    ensures NewGroup(ApprovingMessage(mid)(m)) == MarkGroup(mid)(NewGroup(m))
  {
    assert MapSeq([EntryOf(m)], MarkEntry(mid)) == [MarkEntry(mid)(EntryOf(m))];
  }

  lemma ExtendCommutesWithApproval(g: Group, m: Message, mid: int)
    ensures Extend(MarkGroup(mid)(g), ApprovingMessage(mid)(m)) == MarkGroup(mid)(Extend(g, m))
  {
    MapSeqAppend(g.messages, [EntryOf(m)], MarkEntry(mid));
    assert MapSeq([EntryOf(m)], MarkEntry(mid)) == [MarkEntry(mid)(EntryOf(m))];
  }

  /** One grouping step commutes with approving a message. */
  lemma {:induction false} AddToCommutesWithApproval(gs: seq<Group>, m: Message, mid: int)
    ensures AddTo(MarkApproved(gs, mid), ApprovingMessage(mid)(m)) == MarkApproved(AddTo(gs, m), mid)
  {
    var f := ApprovingMessage(mid);
    var g := MarkGroup(mid);
    if gs == [] {
      NewGroupCommutesWithApproval(m, mid);
      MarkApprovedCons(NewGroup(m), [], mid);
    } else {
      MarkApprovedTail(gs, mid);
      var mgs := MarkApproved(gs, mid);
      assert mgs[0] == g(gs[0]) && mgs[1..] == MarkApproved(gs[1..], mid);
      if gs[0].propertyId == m.propertyId {
        ExtendCommutesWithApproval(gs[0], m, mid);
        MarkApprovedCons(Extend(gs[0], m), gs[1..], mid);
      } else {
        AddToCommutesWithApproval(gs[1..], m, mid);
        MarkApprovedCons(gs[0], AddTo(gs[1..], m), mid);
      }
    }
  }

  /** Grouping after approving a message is approving it inside the groups. */
  lemma {:induction false} GroupingCommutesWithApproval(ms: seq<Message>, mid: int)
    ensures GroupByProperty(MapSeq(ms, ApprovingMessage(mid))) == MarkApproved(GroupByProperty(ms), mid)
  {
    var f := ApprovingMessage(mid);
    if ms != [] {
      var init := ms[..|ms| - 1];
      var fms := MapSeq(ms, f);
      assert fms[..|fms| - 1] == MapSeq(init, f);
      GroupingCommutesWithApproval(init, mid);
      AddToCommutesWithApproval(GroupByProperty(init), ms[|ms| - 1], mid);
    }
  }

  /** After a request is approved, the page's grouped requests equal what a
      fresh `GET /api/messages` would return. */
  lemma ApproveRequestMirrorsServer(d: Dashboard, s: Server.Store, mid: int)
    requires d.applications == Server.GroupedView(s.messages) && Server.UniqueMessageIds(s.messages)
    ensures var h := Server.ApproveMessage(s, mid);
      ApproveRequest(d, mid, OutcomeOf(h.response)).after.applications == Server.GroupedView(h.store.messages)
  {
    var h := Server.ApproveMessage(s, mid);
    if h.response.status == 200 {
      var ms := s.messages;
      var i := Server.FindMessage(ms, mid);
      assert h.store.messages == MapSeq(ms, ApprovingMessage(mid)) by {
        ApproveOneIsApproveAll(ms, i);
      }
      GroupedViewCommutesWithApproval(ms, mid);
    }
  }

  /** Approving one message in the store and regrouping gives the page's
      locally marked groups. */
  lemma GroupedViewCommutesWithApproval(ms: seq<Message>, mid: int)
    ensures Server.GroupedView(MapSeq(ms, ApprovingMessage(mid))) == MarkApproved(Server.GroupedView(ms), mid)
  {
    var f := ApprovingMessage(mid);
    assert SortNewestFirst(MapSeq(ms, f)) == MapSeq(SortNewestFirst(ms), f) by {
      SortByMapCommutes(ms, NewestFirstKey, f);
    }
    GroupingCommutesWithApproval(SortNewestFirst(ms), mid);
  }
}

=== FILE: browse.dfy ===
/** The browsing page: the state-to-cities index built from all fetched
    listings, the reset that follows a change of the selected state, and the
    search that filters the fetched listings by state and city. */
module Browse {
  import opened Seqs
  import opened Model

  /** `formattedLocations` and `states`: every state once, in the order it
      was first met, with its cities in the order they were first met. */
  datatype Locations = Locations(states: seq<string>, cities: map<string, seq<string>>)

  /** No element occurs twice. */
  predicate Distinct<T(==)>(s: seq<T>)
  {
    forall i, j :: 0 <= i < j < |s| ==> s[i] != s[j]
  }

  /** The shape the page relies on: `states` lists exactly the index keys,
      once each, and no city list repeats a city. */
  ghost predicate WellFormed(loc: Locations)
  {
    && Distinct(loc.states)
    && (forall st :: st in loc.states <==> st in loc.cities)
    && (forall st :: st in loc.cities ==> Distinct(loc.cities[st]))
  }

  /** Every property's city is listed under its state. */
  ghost predicate Covers(loc: Locations, ps: seq<Listing>)
  {
    forall p :: p in ps ==> p.state in loc.cities && p.city in loc.cities[p.state]
  }

  /** Every state and every city of the index comes from some property. */
  ghost predicate Sourced(loc: Locations, ps: seq<Listing>)
  {
    forall st, c :: st in loc.cities && c in loc.cities[st] ==>
      exists p :: p in ps && p.state == st && p.city == c
  }

  /** Every listed state has at least one city. */
  ghost predicate NoEmptyState(loc: Locations)
  {
    forall st :: st in loc.cities ==> loc.cities[st] != []
  }

  const NoLocations: Locations := Locations([], map[])

  /** One step of the `forEach`: add the property's city to the set of its
      state, creating the set when the state is new. */
  function AddLocation(loc: Locations, p: Listing): Locations
  {
    if p.state in loc.cities then
      if p.city in loc.cities[p.state] then loc
      else loc.(cities := loc.cities[p.state := loc.cities[p.state] + [p.city]])
    else
      Locations(loc.states + [p.state], loc.cities[p.state := [p.city]])
  }

  /** The index built in the fetch effect. */
  function BuildLocations(ps: seq<Listing>): (loc: Locations)
    ensures WellFormed(loc)
    ensures NoEmptyState(loc)
    ensures Covers(loc, ps)
    ensures Sourced(loc, ps)
  {
    if ps == [] then NoLocations
    else
      var init := ps[..|ps|-1];
      var p := ps[|ps|-1];
      var prev := BuildLocations(init);
      assert ps == init + [p];
      var loc := AddLocation(prev, p);
      AddLocationKeepsShape(prev, p);
      assert Covers(loc, ps) by {
        forall q | q in ps ensures q.state in loc.cities && q.city in loc.cities[q.state] {
          if q != p { assert q in init; }
        }
      }
      assert Sourced(loc, ps) by {
        forall st, c | st in loc.cities && c in loc.cities[st]
          ensures exists q :: q in ps && q.state == st && q.city == c
        {
          if st == p.state && c == p.city {
            assert p in ps;
          } else {
            assert st in prev.cities && c in prev.cities[st];
            var q :| q in init && q.state == st && q.city == c;
            assert q in ps;
          }
        }
      }
      loc
  }

  lemma {:induction false} AddLocationKeepsShape(loc: Locations, p: Listing)
    requires WellFormed(loc) && NoEmptyState(loc)
    ensures WellFormed(AddLocation(loc, p)) && NoEmptyState(AddLocation(loc, p))
    ensures var loc' := AddLocation(loc, p);
      && p.state in loc'.cities && p.city in loc'.cities[p.state]
      && (forall st :: st in loc.cities ==> st in loc'.cities)
      && (forall st, c :: st in loc.cities && c in loc.cities[st] ==> c in loc'.cities[st])
      && (forall st, c :: st in loc'.cities && c in loc'.cities[st] ==>
            (st == p.state && c == p.city) || (st in loc.cities && c in loc.cities[st]))
  {
    var loc' := AddLocation(loc, p);
    if p.state !in loc.cities {
      assert p.state !in loc.states;
      DistinctAppend(loc.states, p.state);
      assert loc'.cities[p.state] == [p.city];
    } else if p.city !in loc.cities[p.state] {
      DistinctAppend(loc.cities[p.state], p.city);
      assert loc'.states == loc.states;
    }
  }

  /** Appending a new element keeps a sequence free of repeats. */
  lemma DistinctAppend<T>(s: seq<T>, x: T)
    requires Distinct(s) && x !in s
    ensures Distinct(s + [x])
  {
    var r := s + [x];
    forall i, j | 0 <= i < j < |r| ensures r[i] != r[j] {
      if j < |s| { assert r[i] == s[i] && r[j] == s[j]; }
      else { assert r[i] == s[i]; }
    }
  }

  /** The search widget's state. */
  datatype SearchView = SearchView(
    selectedState: string,
    selectedCity: string,
    availableCities: seq<string>,
    results: seq<Listing>,
    searchAttempted: bool)

  /** The effect run when the selected state (or the index) changes. */
  function SelectState(v: SearchView, loc: Locations, st: string): (v': SearchView)
    ensures v'.selectedState == st && v'.selectedCity == ""
    ensures v'.results == [] && !v'.searchAttempted
    ensures v'.availableCities == if st != "" && st in loc.cities then loc.cities[st] else []
  {
    if st != "" then
      SearchView(st, "", if st in loc.cities then loc.cities[st] else [], [], false)
    else
      SearchView(st, "", [], [], false)
  }

  /** Does the listing lie in the selected state and city? */
  predicate InPlace(p: Listing, st: string, c: string)
  {
    p.state == st && p.city == c
  }

  /** `handleSearch`. */
  function Search(v: SearchView, all: seq<Listing>): (v': SearchView)
    ensures v.selectedState == "" || v.selectedCity == "" ==> v' == v
    ensures v.selectedState != "" && v.selectedCity != "" ==>
      && v'.searchAttempted
      && v'.results == Filter(all, (p: Listing) => InPlace(p, v.selectedState, v.selectedCity))
      && v'.selectedState == v.selectedState && v'.selectedCity == v.selectedCity
      && v'.availableCities == v.availableCities
  {
    if v.selectedState == "" || v.selectedCity == "" then v
    else
      v.(results := Filter(all, (p: Listing) => InPlace(p, v.selectedState, v.selectedCity)),
         searchAttempted := true)
  }

  /** The results are exactly the listings in the selected place, each as
      often as it occurs, in their original order. */
  lemma {:induction false} SearchResultsExact(v: SearchView, all: seq<Listing>)
    requires v.selectedState != "" && v.selectedCity != ""
    ensures var rs := Search(v, all).results;
      && (forall p :: p in rs <==> p in all && p.state == v.selectedState && p.city == v.selectedCity)
      && (forall p :: multiset(rs)[p] ==
            if p.state == v.selectedState && p.city == v.selectedCity then multiset(all)[p] else 0)
      && SubsequenceOf(rs, all)
  {
    var f := (p: Listing) => InPlace(p, v.selectedState, v.selectedCity);
    FilterMembers(all, f);
    FilterCount(all, f);
    FilterIsSubsequence(all, f);
  }

  /** Searching again with the same selections changes nothing. */
  lemma SearchIdempotent(v: SearchView, all: seq<Listing>)
    ensures Search(Search(v, all), all) == Search(v, all)
  {
  }

  /** A search finds something exactly when the index offers the selected
      city for the selected state: every city in the drop-down has listings,
      and no other pair does. */
  lemma {:induction false} FoundIffIndexed(v: SearchView, all: seq<Listing>)
    requires v.selectedState != "" && v.selectedCity != ""
    ensures var loc := BuildLocations(all);
      Search(v, all).results != [] <==>
        v.selectedState in loc.cities && v.selectedCity in loc.cities[v.selectedState]
  {
    var loc := BuildLocations(all);
    var rs := Search(v, all).results;
    SearchResultsExact(v, all);
    if rs != [] {
      assert rs[0] in rs;
    }
    if v.selectedState in loc.cities && v.selectedCity in loc.cities[v.selectedState] {
      var p :| p in all && p.state == v.selectedState && p.city == v.selectedCity;
      assert p in rs;
    }
  }

  /** After picking a state and then one of the cities offered for it, the
      search never comes back empty, provided every listing names a city (the
      server refuses to store one that does not). */
  lemma {:induction false} OfferedCityHasListings(v: SearchView, all: seq<Listing>, st: string, i: nat)
    requires forall p :: p in all ==> p.city != ""
    requires st != ""
    requires i < |SelectState(v, BuildLocations(all), st).availableCities|
    ensures var picked := SelectState(v, BuildLocations(all), st);
      Search(picked.(selectedCity := picked.availableCities[i]), all).results != []
  {
    var loc := BuildLocations(all);
    var picked := SelectState(v, loc, st);
    var c := picked.availableCities[i];
    assert st in loc.cities && c in loc.cities[st];
    var p :| p in all && p.state == st && p.city == c;
    FoundIffIndexed(picked.(selectedCity := c), all);
  }
}

=== FILE: grouping.dfy ===
/** The read-time projection of `GET /api/messages`: all messages sorted
    newest first, then grouped by `propertyId`. Groups appear in the order in
    which their property is first met while scanning the sorted messages,
    messages inside a group keep the scan order, and a group is titled by its
    first (newest) message.

    `GroupByPropertyAsWritten` models what the handler actually returns
    through `Object.values`: JavaScript lists integer-like keys first, in
    ascending numeric order, which breaks the first-encounter order. */
module Grouping {
  import opened Seqs
  import opened Model

  /** Sort key that puts later timestamps first. */
  function NewestFirstKey(m: Message): int
  {
    -m.timestamp
  }

  /** `UserMessage.find().sort({ timestamp: -1 })`. */
  function SortNewestFirst(ms: seq<Message>): (r: seq<Message>)
    ensures |r| == |ms|
    ensures multiset(r) == multiset(ms)
    ensures forall i, j :: 0 <= i < j < |r| ==> r[i].timestamp >= r[j].timestamp
  {
    var r := SortBy(ms, NewestFirstKey);
    assert forall i, j :: 0 <= i < j < |r| ==> NewestFirstKey(r[i]) <= NewestFirstKey(r[j]);
    r
  }

  /** The fields of a message that are pushed into its group. */
  function EntryOf(m: Message): Entry
  {
    Entry(m.userName, m.userEmail, m.userPhone, m.message, m.status, m.mid, m.timestamp)
  }

  /** The group opened by the first message seen for a property. */
  function NewGroup(m: Message): Group
  {
    Group(m.propertyTitle, m.propertyId, [EntryOf(m)])
  }

  /** A group with one more message pushed at its end. */
  function Extend(g: Group, m: Message): Group
  {
    g.(messages := g.messages + [EntryOf(m)])
  }

  /** Index of the first group for property `k`, or `|gs|` when none. */
  function FirstGroup(gs: seq<Group>, k: int): (i: nat)
    ensures i <= |gs|
    ensures i < |gs| ==> gs[i].propertyId == k
    ensures forall j :: 0 <= j < i ==> gs[j].propertyId != k
  {
    FirstWhere(gs, GroupFor(k))
  }

  function GroupFor(k: int): Group -> bool
  {
    (g: Group) => g.propertyId == k
  }

  /** Index of the first message about property `k`, or `|ms|` when none. */
  function FirstIndex(ms: seq<Message>, k: int): (i: nat)
    ensures i <= |ms|
    ensures i < |ms| ==> ms[i].propertyId == k
    ensures forall j :: 0 <= j < i ==> ms[j].propertyId != k
  {
    FirstWhere(ms, About(k))
  }

  function About(k: int): Message -> bool
  {
    (m: Message) => m.propertyId == k
  }

  /** The messages about property `k`, in scan order. */
  function Only(ms: seq<Message>, k: int): seq<Message>
  {
    if ms == [] then []
    else Only(ms[..|ms|-1], k) + (if ms[|ms|-1].propertyId == k then [ms[|ms|-1]] else [])
  }

  /** The title of the first message about property `k` ("" if none). */
  function FirstTitle(ms: seq<Message>, k: int): string
  {
    var i := FirstIndex(ms, k);
    if i < |ms| then ms[i].propertyTitle else ""
  }

  /** One step of the `forEach`: push `m` into the group of its property,
      opening a new group at the end if the property has none yet. */
  function AddTo(gs: seq<Group>, m: Message): (r: seq<Group>)
    ensures FirstGroup(gs, m.propertyId) == |gs| ==> r == gs + [NewGroup(m)]
    ensures FirstGroup(gs, m.propertyId) < |gs| ==>
      r == gs[FirstGroup(gs, m.propertyId) := Extend(gs[FirstGroup(gs, m.propertyId)], m)]
  {
    if gs == [] then [NewGroup(m)]
    else if gs[0].propertyId == m.propertyId then [Extend(gs[0], m)] + gs[1..]
    else [gs[0]] + AddTo(gs[1..], m)
  }

  /** The grouping loop over an already sorted message list: at most one
      group per message, and some group as soon as there is a message (see
      `GroupByPropertyCorrect` for the full description). */
  function GroupByProperty(ms: seq<Message>): (r: seq<Group>)
    ensures |r| <= |ms|
    ensures r == [] <==> ms == []
  {
    if ms == [] then []
    else AddTo(GroupByProperty(ms[..|ms|-1]), ms[|ms|-1])
  }

  /** Every group is about a property that some message mentions. */
  ghost predicate Sourced(ms: seq<Message>, gs: seq<Group>)
  {
    forall i :: 0 <= i < |gs| ==> FirstIndex(ms, gs[i].propertyId) < |ms|
  }

  /** Every message's property has a group. */
  ghost predicate Covered(ms: seq<Message>, gs: seq<Group>)
  {
    forall n :: 0 <= n < |ms| ==> FirstGroup(gs, ms[n].propertyId) < |gs|
  }

  /** Groups come in order of first encounter, so their keys are distinct. */
  ghost predicate InEncounterOrder(ms: seq<Message>, gs: seq<Group>)
  {
    forall i, j :: 0 <= i < j < |gs| ==>
      FirstIndex(ms, gs[i].propertyId) < FirstIndex(ms, gs[j].propertyId)
  }

  /** A group holds exactly its property's messages, in scan order. */
  ghost predicate Contents(ms: seq<Message>, gs: seq<Group>)
  {
    forall i :: 0 <= i < |gs| ==> gs[i].messages == MapSeq(Only(ms, gs[i].propertyId), EntryOf)
  }

  /** A group is titled by the first message about its property. */
  ghost predicate Titled(ms: seq<Message>, gs: seq<Group>)
  {
    forall i :: 0 <= i < |gs| ==> gs[i].propertyTitle == FirstTitle(ms, gs[i].propertyId)
  }

  /** An independent description of a correct grouping of `ms`. */
  ghost predicate GroupsOf(ms: seq<Message>, gs: seq<Group>)
  {
    Sourced(ms, gs) && Covered(ms, gs) && InEncounterOrder(ms, gs) && Contents(ms, gs) && Titled(ms, gs)
  }

  /** The total number of messages over all groups. */
  function Total(gs: seq<Group>): nat
  {
    if gs == [] then 0 else |gs[0].messages| + Total(gs[1..])
  }

  lemma {:induction false} FirstIndexAppend(ms: seq<Message>, m: Message, k: int)
    ensures FirstIndex(ms, k) < |ms| ==> FirstIndex(ms + [m], k) == FirstIndex(ms, k)
    ensures FirstIndex(ms, k) == |ms| && m.propertyId == k ==> FirstIndex(ms + [m], k) == |ms|
    ensures FirstIndex(ms, k) == |ms| && m.propertyId != k ==> FirstIndex(ms + [m], k) == |ms| + 1
  {
    FirstWherePrefix(ms, [m], About(k));
  }

  /** How one more message changes the per-key views of the scan. */
  lemma {:induction false} AppendFacts(ms: seq<Message>, m: Message, k: int)
    ensures Only(ms + [m], k) == Only(ms, k) + (if m.propertyId == k then [m] else [])
    ensures FirstIndex(ms, k) < |ms| ==> FirstIndex(ms + [m], k) == FirstIndex(ms, k)
    ensures FirstIndex(ms, k) < |ms| ==> FirstTitle(ms + [m], k) == FirstTitle(ms, k)
    ensures FirstIndex(ms, k) == |ms| && m.propertyId == k ==>
      FirstIndex(ms + [m], k) == |ms| && FirstTitle(ms + [m], k) == m.propertyTitle && Only(ms, k) == []
  {
    assert (ms + [m])[..|ms|] == ms;
    FirstIndexAppend(ms, m, k);
    if FirstIndex(ms, k) == |ms| {
      OnlyEmptyWhenAbsent(ms, k);
    }
  }

  /** A key is absent from `ms` exactly when it has no messages there. */
  lemma {:induction false} OnlyEmptyWhenAbsent(ms: seq<Message>, k: int)
    requires forall n :: 0 <= n < |ms| ==> ms[n].propertyId != k
    ensures Only(ms, k) == []
  {
    if ms != [] {
      OnlyEmptyWhenAbsent(ms[..|ms|-1], k);
    }
  }

  /** Every message is among the messages about its own property. */
  lemma {:induction false} InOnly(ms: seq<Message>, n: nat)
    requires n < |ms|
    ensures ms[n] in Only(ms, ms[n].propertyId)
  {
    if n < |ms| - 1 {
      InOnly(ms[..|ms|-1], n);
    }
  }

  /** Appending groups keeps the first group of every key already present. */
  lemma {:induction false} FirstGroupPrefix(gs: seq<Group>, more: seq<Group>, k: int)
    ensures FirstGroup(gs, k) < |gs| ==> FirstGroup(gs + more, k) == FirstGroup(gs, k)
    ensures FirstGroup(gs, k) == |gs| ==> FirstGroup(gs + more, k) == |gs| + FirstGroup(more, k)
  {
    FirstWherePrefix(gs, more, GroupFor(k));
  }

  /** The search moves past a first group with another key. */
  lemma FirstGroupPast(gs: seq<Group>, k: int)
    requires gs != [] && gs[0].propertyId != k
    ensures FirstGroup(gs, k) == 1 + FirstGroup(gs[1..], k)
  {
    assert !GroupFor(k)(gs[0]);
  }

  /** Replacing a group by one with the same key keeps key lookups. */
  lemma {:induction false} FirstGroupUpdate(gs: seq<Group>, f: nat, g: Group, k: int)
    requires f < |gs| && g.propertyId == gs[f].propertyId
    ensures FirstGroup(gs[f := g], k) == FirstGroup(gs, k)
  {
    FirstWhereUpdate(gs, f, g, GroupFor(k));
  }

  /** Loop step for a message whose property has no group yet. */
  lemma {:induction false} AddNewKeepsGroupsOf(ms: seq<Message>, gs: seq<Group>, m: Message)
    requires GroupsOf(ms, gs)
    requires FirstGroup(gs, m.propertyId) == |gs|
    ensures GroupsOf(ms + [m], gs + [NewGroup(m)])
  {
    NewKeyAbsent(ms, gs, m);
    AddNewSourcedCovered(ms, gs, m);
    AddNewInEncounterOrder(ms, gs, m);
    AddNewContents(ms, gs, m);
  }

  /** A property with no group has no message yet. */
  lemma {:induction false} NewKeyAbsent(ms: seq<Message>, gs: seq<Group>, m: Message)
    requires Covered(ms, gs)
    requires FirstGroup(gs, m.propertyId) == |gs|
    ensures FirstIndex(ms, m.propertyId) == |ms|
  {
  }

  lemma {:induction false} AddNewSourcedCovered(ms: seq<Message>, gs: seq<Group>, m: Message)
    requires Sourced(ms, gs) && Covered(ms, gs)
    requires FirstGroup(gs, m.propertyId) == |gs|
    requires FirstIndex(ms, m.propertyId) == |ms|
    ensures Sourced(ms + [m], gs + [NewGroup(m)])
    ensures Covered(ms + [m], gs + [NewGroup(m)])
  {
    var ms', r, k := ms + [m], gs + [NewGroup(m)], m.propertyId;
    AppendFacts(ms, m, k);
    forall i | 0 <= i < |r| ensures FirstIndex(ms', r[i].propertyId) < |ms'| {
      if i < |gs| { AppendFacts(ms, m, gs[i].propertyId); }
    }
    forall n | 0 <= n < |ms'| ensures FirstGroup(r, ms'[n].propertyId) < |r| {
      FirstGroupPrefix(gs, [NewGroup(m)], ms'[n].propertyId);
      if n < |ms| { assert ms'[n] == ms[n]; }
    }
  }

  lemma {:induction false} AddNewInEncounterOrder(ms: seq<Message>, gs: seq<Group>, m: Message)
    requires Sourced(ms, gs) && InEncounterOrder(ms, gs)
    requires FirstIndex(ms, m.propertyId) == |ms|
    ensures InEncounterOrder(ms + [m], gs + [NewGroup(m)])
  {
    var ms', r, k := ms + [m], gs + [NewGroup(m)], m.propertyId;
    AppendFacts(ms, m, k);
    forall i, j | 0 <= i < j < |r|
      ensures FirstIndex(ms', r[i].propertyId) < FirstIndex(ms', r[j].propertyId)
    {
      AppendFacts(ms, m, gs[i].propertyId);
      if j < |gs| { AppendFacts(ms, m, gs[j].propertyId); }
    }
  }

  lemma {:induction false} AddNewContents(ms: seq<Message>, gs: seq<Group>, m: Message)
    requires Sourced(ms, gs) && Contents(ms, gs) && Titled(ms, gs)
    requires FirstGroup(gs, m.propertyId) == |gs|
    requires FirstIndex(ms, m.propertyId) == |ms|
    ensures Contents(ms + [m], gs + [NewGroup(m)])
    ensures Titled(ms + [m], gs + [NewGroup(m)])
  {
    var ms', r, k := ms + [m], gs + [NewGroup(m)], m.propertyId;
    AppendFacts(ms, m, k);
    forall i | 0 <= i < |r|
      ensures r[i].messages == MapSeq(Only(ms', r[i].propertyId), EntryOf)
      ensures r[i].propertyTitle == FirstTitle(ms', r[i].propertyId)
    {
      if i < |gs| {
        assert gs[i].propertyId != k;
        AppendFacts(ms, m, gs[i].propertyId);
      } else {
        assert Only(ms', k) == [m];
      }
    }
  }

  /** Loop step for a message whose property already has group `f`. */
  lemma {:induction false} AddExistingKeepsGroupsOf(ms: seq<Message>, gs: seq<Group>, m: Message, f: nat)
    requires GroupsOf(ms, gs)
    requires f == FirstGroup(gs, m.propertyId) && f < |gs|
    ensures GroupsOf(ms + [m], gs[f := Extend(gs[f], m)])
  {
    AddExistingSourcedCovered(ms, gs, m, f);
    AddExistingInEncounterOrder(ms, gs, m, f);
    AddExistingContents(ms, gs, m, f);
  }

  lemma {:induction false} AddExistingSourcedCovered(ms: seq<Message>, gs: seq<Group>, m: Message, f: nat)
    requires Sourced(ms, gs) && Covered(ms, gs)
    requires f == FirstGroup(gs, m.propertyId) && f < |gs|
    ensures Sourced(ms + [m], gs[f := Extend(gs[f], m)])
    ensures Covered(ms + [m], gs[f := Extend(gs[f], m)])
  {
    var ms', r := ms + [m], gs[f := Extend(gs[f], m)];
    forall i | 0 <= i < |r| ensures FirstIndex(ms', r[i].propertyId) < |ms'| {
      FirstIndexAppend(ms, m, gs[i].propertyId);
    }
    forall n | 0 <= n < |ms'| ensures FirstGroup(r, ms'[n].propertyId) < |r| {
      FirstGroupUpdate(gs, f, Extend(gs[f], m), ms'[n].propertyId);
      if n < |ms| { assert ms'[n] == ms[n]; }
    }
  }

  lemma {:induction false} AddExistingInEncounterOrder(ms: seq<Message>, gs: seq<Group>, m: Message, f: nat)
    requires Sourced(ms, gs) && InEncounterOrder(ms, gs)
    requires f < |gs|
    ensures InEncounterOrder(ms + [m], gs[f := Extend(gs[f], m)])
  {
    var ms', r := ms + [m], gs[f := Extend(gs[f], m)];
    forall i, j | 0 <= i < j < |r|
      ensures FirstIndex(ms', r[i].propertyId) < FirstIndex(ms', r[j].propertyId)
    {
      FirstIndexAppend(ms, m, gs[i].propertyId);
      FirstIndexAppend(ms, m, gs[j].propertyId);
    }
  }

  lemma {:induction false} AddExistingContents(ms: seq<Message>, gs: seq<Group>, m: Message, f: nat)
    requires Sourced(ms, gs) && InEncounterOrder(ms, gs) && Contents(ms, gs) && Titled(ms, gs)
    requires f == FirstGroup(gs, m.propertyId) && f < |gs|
    ensures Contents(ms + [m], gs[f := Extend(gs[f], m)])
    ensures Titled(ms + [m], gs[f := Extend(gs[f], m)])
  {
    var ms', r, k := ms + [m], gs[f := Extend(gs[f], m)], m.propertyId;
    forall i | 0 <= i < |r|
      ensures r[i].messages == MapSeq(Only(ms', r[i].propertyId), EntryOf)
      ensures r[i].propertyTitle == FirstTitle(ms', r[i].propertyId)
    {
      AppendFacts(ms, m, gs[i].propertyId);
      if i == f {
        MapSeqAppend(Only(ms, k), [m], EntryOf);
      } else if i < f {
        assert gs[i].propertyId != k;
      } else {
        assert FirstIndex(ms, gs[f].propertyId) < FirstIndex(ms, gs[i].propertyId);
        assert gs[i].propertyId != k;
      }
    }
  }

  /** One loop step preserves the description. */
  lemma {:induction false} AddToKeepsGroupsOf(ms: seq<Message>, gs: seq<Group>, m: Message)
    requires GroupsOf(ms, gs)
    ensures GroupsOf(ms + [m], AddTo(gs, m))
  {
    var f := FirstGroup(gs, m.propertyId);
    if f == |gs| {
      AddNewKeepsGroupsOf(ms, gs, m);
    } else {
      AddExistingKeepsGroupsOf(ms, gs, m, f);
    }
  }

  /** The grouping loop meets the independent description. */
  lemma {:induction false} GroupByPropertyCorrect(ms: seq<Message>)
    ensures GroupsOf(ms, GroupByProperty(ms))
  {
    if ms != [] {
      var init, m := ms[..|ms|-1], ms[|ms|-1];
      assert ms == init + [m];
      assert GroupByProperty(ms) == AddTo(GroupByProperty(init), m);
      GroupByPropertyCorrect(init);
      AddToKeepsGroupsOf(init, GroupByProperty(init), m);
    }
  }

  lemma {:induction false} AddToTotal(gs: seq<Group>, m: Message)
    ensures Total(AddTo(gs, m)) == Total(gs) + 1
  {
    if gs != [] && gs[0].propertyId != m.propertyId {
      AddToTotal(gs[1..], m);
      assert ([gs[0]] + AddTo(gs[1..], m))[1..] == AddTo(gs[1..], m);
    } else if gs != [] {
      assert ([Extend(gs[0], m)] + gs[1..])[1..] == gs[1..];
    }
  }

  /** Grouping neither loses nor duplicates a message. */
  lemma {:induction false} GroupByPropertyTotal(ms: seq<Message>)
    ensures Total(GroupByProperty(ms)) == |ms|
  {
    if ms != [] {
      GroupByPropertyTotal(ms[..|ms|-1]);
      AddToTotal(GroupByProperty(ms[..|ms|-1]), ms[|ms|-1]);
    }
  }

  /** Every group key is the property of some message. */
  lemma {:induction false} GroupsSourced(ms: seq<Message>)
    ensures Sourced(ms, GroupByProperty(ms))
  {
    GroupByPropertyCorrect(ms);
  }

  /** Group keys are pairwise distinct. */
  lemma {:induction false} GroupKeysDistinct(ms: seq<Message>)
    ensures var gs := GroupByProperty(ms);
      forall i, j :: 0 <= i < j < |gs| ==> gs[i].propertyId != gs[j].propertyId
  {
    GroupByPropertyCorrect(ms);
  }

  /** Every message lies in a group, as its own entry; with distinct keys
      that group is the only one about its property. */
  lemma {:induction false} EveryMessageInItsGroup(ms: seq<Message>, n: nat) returns (i: nat)
    requires n < |ms|
    ensures i < |GroupByProperty(ms)|
    ensures GroupByProperty(ms)[i].propertyId == ms[n].propertyId
    ensures EntryOf(ms[n]) in GroupByProperty(ms)[i].messages
  {
    var gs := GroupByProperty(ms);
    GroupByPropertyCorrect(ms);
    var k := ms[n].propertyId;
    i := FirstGroup(gs, k);
    assert Covered(ms, gs);
    var o := Only(ms, k);
    InOnly(ms, n);
    var t :| 0 <= t < |o| && o[t] == ms[n];
    assert Contents(ms, gs);
    assert gs[i].messages[t] == EntryOf(ms[n]);
  }

  /** JavaScript array-index property keys: `Object.values` lists these
      first, ascending, before all other keys in insertion order. */
  predicate IsArrayIndex(k: int)
  {
    0 <= k < 0xFFFF_FFFF
  }

  function GroupKey(g: Group): int
  {
    g.propertyId
  }

  /** A group whose key `Object.values` lists among the array indices. */
  predicate IndexKeyed(g: Group)
  {
    IsArrayIndex(g.propertyId)
  }

  /** A group whose key `Object.values` lists in insertion order. */
  predicate OtherKeyed(g: Group)
  {
    !IsArrayIndex(g.propertyId)
  }

  /** Array-index keys come first, in ascending order. */
  ghost predicate IndexKeysFirst(gs: seq<Group>)
  {
    forall i, j :: 0 <= i < j < |gs| && IndexKeyed(gs[j]) ==>
      IndexKeyed(gs[i]) && gs[i].propertyId <= gs[j].propertyId
  }

  /** The order `Object.values(grouped)` gives to groups inserted as `gs`:
      the same groups, the array-index keys first in ascending order, then
      the other keys in insertion order. */
  function ObjectValuesOrder(gs: seq<Group>): (r: seq<Group>)
    ensures multiset(r) == multiset(gs)
    ensures IndexKeysFirst(r)
    ensures Filter(r, OtherKeyed) == Filter(gs, OtherKeyed)
  {
    var a := SortBy(Filter(gs, IndexKeyed), GroupKey);
    var b := Filter(gs, OtherKeyed);
    ObjectValuesOrderFacts(gs, a, b);
    a + b
  }

  lemma {:induction false} ObjectValuesOrderFacts(gs: seq<Group>, a: seq<Group>, b: seq<Group>)
    requires a == SortBy(Filter(gs, IndexKeyed), GroupKey) && b == Filter(gs, OtherKeyed)
    ensures multiset(a + b) == multiset(gs)
    ensures IndexKeysFirst(a + b)
    ensures Filter(a + b, OtherKeyed) == b
  {
    FilterCount(gs, IndexKeyed);
    FilterCount(gs, OtherKeyed);
    assert multiset(Filter(gs, IndexKeyed)) + multiset(b) == multiset(gs);
    SortedIndexKeyed(gs, a);
    FilteredOtherKeyed(gs, b);
    SortedThenOthers(a, b);
    FilterAppend(a, b, OtherKeyed);
    FilterNone(a, OtherKeyed);
    FilterAll(b, OtherKeyed);
  }

  /** The sorted array-index groups are all array-index keyed and ascending. */
  lemma {:induction false} SortedIndexKeyed(gs: seq<Group>, a: seq<Group>)
    requires a == SortBy(Filter(gs, IndexKeyed), GroupKey)
    ensures forall i :: 0 <= i < |a| ==> IndexKeyed(a[i])
    ensures forall i, j :: 0 <= i < j < |a| ==> a[i].propertyId <= a[j].propertyId
  {
    var fa := Filter(gs, IndexKeyed);
    FilterMembers(gs, IndexKeyed);
    forall i | 0 <= i < |a| ensures IndexKeyed(a[i]) {
      assert a[i] in multiset(a);
      assert a[i] in fa;
    }
    forall i, j | 0 <= i < j < |a| ensures a[i].propertyId <= a[j].propertyId {
      assert GroupKey(a[i]) <= GroupKey(a[j]);
    }
  }

  lemma {:induction false} FilteredOtherKeyed(gs: seq<Group>, b: seq<Group>)
    requires b == Filter(gs, OtherKeyed)
    ensures forall i :: 0 <= i < |b| ==> OtherKeyed(b[i])
  {
    FilterMembers(gs, OtherKeyed);
    forall i | 0 <= i < |b| ensures OtherKeyed(b[i]) {
      assert b[i] in b;
    }
  }

  /** Ascending array-index groups followed by other groups put the
      array-index keys first. */
  lemma {:induction false} SortedThenOthers(a: seq<Group>, b: seq<Group>)
    requires forall i :: 0 <= i < |a| ==> IndexKeyed(a[i])
    requires forall i, j :: 0 <= i < j < |a| ==> a[i].propertyId <= a[j].propertyId
    requires forall i :: 0 <= i < |b| ==> OtherKeyed(b[i])
    ensures IndexKeysFirst(a + b)
  {
    var r := a + b;
    forall i, j | 0 <= i < j < |r| && IndexKeyed(r[j])
      ensures IndexKeyed(r[i]) && r[i].propertyId <= r[j].propertyId
    {
      if j < |a| {
        assert r[i] == a[i] && r[j] == a[j];
      }
    }
  }

  /** `GET /api/messages` grouping as `server/index.js` writes it: the groups
      of the first-encounter grouping, reordered by `Object.values`. */
  function GroupByPropertyAsWritten(ms: seq<Message>): (r: seq<Group>)
    ensures multiset(r) == multiset(GroupByProperty(ms))
    ensures IndexKeysFirst(r)
    ensures Filter(r, OtherKeyed) == Filter(GroupByProperty(ms), OtherKeyed)
  {
    ObjectValuesOrder(GroupByProperty(ms))
  }

  /** With no array-index property ids (for example ids generated from
      `Date.now()`), the as-written order is the first-encounter order. */
  lemma {:induction false} AsWrittenAgreesWithoutIndexKeys(ms: seq<Message>)
    requires forall n :: 0 <= n < |ms| ==> !IsArrayIndex(ms[n].propertyId)
    ensures GroupByPropertyAsWritten(ms) == GroupByProperty(ms)
  {
    var gs := GroupByProperty(ms);
    GroupsSourced(ms);
    assert forall i :: 0 <= i < |gs| ==> !IsArrayIndex(gs[i].propertyId);
    FilterAll(gs, OtherKeyed);
    FilterNone(gs, IndexKeyed);
  }

  /** Two messages: one about property 2 at time 20, one about property 1 at
      time 10. Newest first, property 2 is met first, yet the handler lists
      the group of property 1 first. */
  lemma AsWrittenBreaksFirstEncounterOrder()
    ensures var ms := [Msg(1, 2, 20), Msg(2, 1, 10)];
      && GroupByProperty(SortNewestFirst(ms))[0].propertyId == 2
      && GroupByPropertyAsWritten(SortNewestFirst(ms))[0].propertyId == 1
  {
    var a, b := Msg(1, 2, 20), Msg(2, 1, 10);
    SampleSorted(a, b);
    SampleGrouped(a, b);
    SampleObjectValues(NewGroup(a), NewGroup(b));
  }

  lemma SampleSorted(a: Message, b: Message)
    requires a.timestamp > b.timestamp
    ensures SortNewestFirst([a, b]) == [a, b]
  {
    var ms := [a, b];
    assert ms[1..] == [b];
    assert [b][1..] == [];
    assert SortBy([b], NewestFirstKey) == InsertBy(b, [], NewestFirstKey) == [b];
    assert InsertBy(a, [b], NewestFirstKey) == [a] + [b];
  }

  lemma SampleGrouped(a: Message, b: Message)
    requires a.propertyId != b.propertyId
    ensures GroupByProperty([a, b]) == [NewGroup(a), NewGroup(b)]
  {
    assert [a, b][..1] == [a];
    assert [a][..0] == [];
    assert GroupByProperty([a]) == AddTo([], a) == [NewGroup(a)];
    assert AddTo([NewGroup(a)], b) == [NewGroup(a)] + AddTo([], b);
  }

  lemma SampleObjectValues(ga: Group, gb: Group)
    requires IsArrayIndex(ga.propertyId) && IsArrayIndex(gb.propertyId)
    requires ga.propertyId > gb.propertyId
    ensures ObjectValuesOrder([ga, gb]) == [gb, ga]
  {
    var gs := [ga, gb];
    SampleFilters(ga, gb);
    var a := SortBy(Filter(gs, IndexKeyed), GroupKey);
    assert a == [gb, ga] by { SampleSortedByKey(ga, gb); }
    assert ObjectValuesOrder(gs) == a + Filter(gs, OtherKeyed);
    assert a + [] == [gb, ga];
  }

  lemma SampleFilters(ga: Group, gb: Group)
    requires IsArrayIndex(ga.propertyId) && IsArrayIndex(gb.propertyId)
    ensures Filter([ga, gb], IndexKeyed) == [ga, gb]
    ensures Filter([ga, gb], OtherKeyed) == []
  {
    FilterAll([ga, gb], IndexKeyed);
    FilterNone([ga, gb], OtherKeyed);
  }

  lemma SampleSortedByKey(ga: Group, gb: Group)
    requires ga.propertyId > gb.propertyId
    ensures SortBy([ga, gb], GroupKey) == [gb, ga]
  {
    assert [ga, gb][1..] == [gb];
    assert [gb][1..] == [];
    assert SortBy([gb], GroupKey) == InsertBy(gb, [], GroupKey) == [gb];
    assert InsertBy(ga, [gb], GroupKey) == [gb] + InsertBy(ga, [], GroupKey);
  }

  /** A sample message for the counterexample above. */
  function Msg(mid: int, propertyId: int, timestamp: int): Message
  {
    Message(mid, propertyId, "Flat", "Ann", "ann@example.com", None, "Hello", StatusPending, timestamp)
  }
}

=== FILE: model.dfy ===
/** The records the server stores and the request bodies it accepts.

    Identifiers are integers throughout: a listing's `id`, a message's
    `propertyId` and a message's generated `_id`. Absent string fields of a
    request body are modelled as "" (both are falsy in JavaScript) and absent
    numeric fields as `None`. */
module Model {
  import opened Seqs

  /** A rental listing document (the `Property` collection). */
  datatype Listing = Listing(
    id: int,
    title: string,
    state: string,
    city: string,
    location: string,
    price: int,
    beds: int,
    baths: int,
    imageDesc: string,
    imageUrl: string,
    approved: bool)

  /** A symbolic bcrypt digest: the cost factor, the random salt and the
      secret it was computed from. The model never reads `preimage` except in
      `Matches`, which stands for `bcrypt.compare`. */
  datatype Digest = Digest(cost: nat, salt: nat, preimage: string)

  /** A registered account; the password is only ever kept as a digest. */
  datatype User = User(name: string, email: string, password: Digest)

  /** A landlord-contact message (the "user msg" collection). */
  datatype Message = Message(
    mid: int,
    propertyId: int,
    propertyTitle: string,
    userName: string,
    userEmail: string,
    userPhone: Option<string>,
    message: string,
    status: string,
    timestamp: int)

  /** A message as it appears inside a group of the grouped listing: the
      property id and title are carried by the group instead. */
  datatype Entry = Entry(
    userName: string,
    userEmail: string,
    userPhone: Option<string>,
    message: string,
    status: string,
    mid: int,
    timestamp: int)

  /** All messages about one property, newest first. */
  datatype Group = Group(propertyTitle: string, propertyId: int, messages: seq<Entry>)

  const Placeholder: string := "https://via.placeholder.com/400x300"
  const StatusPending: string := "pending"
  const StatusApproved: string := "approved"
  /** bcrypt's `saltRounds`. */
  const SaltRounds: nat := 10

  /** JavaScript's `s || fallback` on a string: the empty string is falsy. */
  function Or(s: string, fallback: string): (r: string)
    ensures r == s || r == fallback
    ensures r != "" <== s != "" || fallback != ""
    ensures s != "" ==> r == s
  {
    if s != "" then s else fallback
  }

  /** JavaScript truthiness of a numeric JSON field: present and non-zero. */
  predicate Truthy(n: Option<int>)
  {
    n.Some? && n.value != 0
  }

  /** The value of a numeric field the caller has established is present. */
  function ValueOf(n: Option<int>): int
  {
    if n.Some? then n.value else 0
  }

  /** `bcrypt.hash(password, SaltRounds)` with the salt drawn by the caller. */
  function Hash(password: string, salt: nat): (d: Digest)
    ensures d.cost == SaltRounds
  {
    Digest(SaltRounds, salt, password)
  }

  /** `bcrypt.compare(password, digest)`. */
  predicate Matches(password: string, d: Digest)
  {
    d.preimage == password
  }

  /** A digest accepts exactly the password it was computed from, whatever
      the salt (the model idealises bcrypt as collision-free). */
  lemma HashMatchesOnlyItsPassword(p: string, q: string, salt: nat)
    ensures Matches(q, Hash(p, salt)) <==> q == p
  {
  }

  /** The body of `POST /api/properties`. */
  datatype ListingFields = ListingFields(
    id: Option<int>,
    title: string,
    state: string,
    city: string,
    location: string,
    price: Option<int>,
    beds: Option<int>,
    baths: Option<int>,
    imageDesc: string,
    imageUrl: string)

  /** The body of `PUT /api/properties/:id`: any subset of the document's
      fields, each merged over the stored value when present. */
  datatype ListingPatch = ListingPatch(
    id: Option<int>,
    title: Option<string>,
    state: Option<string>,
    city: Option<string>,
    location: Option<string>,
    price: Option<int>,
    beds: Option<int>,
    baths: Option<int>,
    imageDesc: Option<string>,
    imageUrl: Option<string>,
    approved: Option<bool>)

  /** The body of `POST /api/register`. */
  datatype Registration = Registration(name: string, email: string, password: string)

  /** The body of `POST /api/login`. */
  datatype Credentials = Credentials(email: string, password: string)

  /** The body of `POST /api/messages`. */
  datatype MessageFields = MessageFields(
    propertyId: Option<int>,
    propertyTitle: string,
    userName: string,
    userEmail: string,
    userPhone: Option<string>,
    message: string)
}

=== FILE: seqs.dfy ===
/** Sequence utilities shared by the server and the client pages: the
    optional-value datatype, a first-match search, an order-preserving filter (JavaScript's
    `Array.prototype.filter`), an element-wise map, a subsequence relation
    and an insertion sort keyed by an integer. */
module Seqs {

  datatype Option<+T> = None | Some(value: T)

  /** Index of the first element that satisfies `p`, or `|s|` when none does
      (the lookups `Array.prototype.findIndex`, `findOne` and `findById`
      perform). */
  function FirstWhere<T>(s: seq<T>, p: T -> bool): (i: nat)
    ensures i <= |s|
    ensures i < |s| ==> p(s[i])
    ensures forall j :: 0 <= j < i ==> !p(s[j])
  {
    if s == [] then 0
    else if p(s[0]) then 0
    else 1 + FirstWhere(s[1..], p)
  }

  /** Appending elements keeps a match already found; with none found, the
      search continues into the appended part. */
  lemma {:induction false} FirstWherePrefix<T>(s: seq<T>, more: seq<T>, p: T -> bool)
    ensures FirstWhere(s, p) < |s| ==> FirstWhere(s + more, p) == FirstWhere(s, p)
    ensures FirstWhere(s, p) == |s| ==> FirstWhere(s + more, p) == |s| + FirstWhere(more, p)
  {
    if s == [] {
      assert s + more == more;
    } else {
      assert (s + more)[0] == s[0];
      assert (s + more)[1..] == s[1..] + more;
      FirstWherePrefix(s[1..], more, p);
    }
  }

  /** Replacing an element by one that `p` judges alike keeps the search. */
  lemma {:induction false} FirstWhereUpdate<T>(s: seq<T>, i: nat, x: T, p: T -> bool)
    requires i < |s| && p(x) == p(s[i])
    ensures FirstWhere(s[i := x], p) == FirstWhere(s, p)
  {
    if i > 0 {
      assert s[i := x][1..] == s[1..][i - 1 := x];
      FirstWhereUpdate(s[1..], i - 1, x, p);
    }
  }

  /** Keeps, in their original order, the elements that satisfy `p`. */
  function Filter<T>(s: seq<T>, p: T -> bool): (r: seq<T>)
    ensures |r| <= |s|
  {
    if s == [] then []
    else (if p(s[0]) then [s[0]] else []) + Filter(s[1..], p)
  }

  /** The filter keeps exactly the elements that satisfy `p`. */
  lemma {:induction false} FilterMembers<T(!new)>(s: seq<T>, p: T -> bool)
    ensures forall x :: x in Filter(s, p) <==> x in s && p(x)
  {
    if s != [] {
      FilterMembers(s[1..], p);
      assert s == [s[0]] + s[1..];
    }
  }

  /** Filtering keeps every selected element as often as it occurs. */
  lemma {:induction false} FilterCount<T(!new)>(s: seq<T>, p: T -> bool)
    ensures forall x :: multiset(Filter(s, p))[x] == if p(x) then multiset(s)[x] else 0
  {
    if s != [] {
      FilterCount(s[1..], p);
      assert s == [s[0]] + s[1..];
    }
  }

  /** Filtering with a predicate every element meets changes nothing. */
  lemma {:induction false} FilterAll<T(!new)>(s: seq<T>, p: T -> bool)
    requires forall i :: 0 <= i < |s| ==> p(s[i])
    ensures Filter(s, p) == s
  {
    if s != [] {
      FilterAll(s[1..], p);
    }
  }

  /** Filtering with a predicate no element meets leaves nothing. */
  lemma {:induction false} FilterNone<T(!new)>(s: seq<T>, p: T -> bool)
    requires forall i :: 0 <= i < |s| ==> !p(s[i])
    ensures Filter(s, p) == []
  {
    if s != [] {
      FilterNone(s[1..], p);
    }
  }

  /** Filtering distributes over concatenation. */
  lemma {:induction false} FilterAppend<T(!new)>(a: seq<T>, b: seq<T>, p: T -> bool)
    ensures Filter(a + b, p) == Filter(a, p) + Filter(b, p)
  {
    if a == [] {
      assert a + b == b;
    } else {
      var head := if p(a[0]) then [a[0]] else [];
      assert (a + b)[0] == a[0] && (a + b)[1..] == a[1..] + b;
      assert Filter(a + b, p) == head + Filter(a[1..] + b, p);
      FilterAppend(a[1..], b, p);
      assert Filter(a, p) == head + Filter(a[1..], p);
    }
  }

  /** `a` can be obtained from `b` by deleting elements. */
  predicate SubsequenceOf<T(==)>(a: seq<T>, b: seq<T>)
    decreases |b|
  {
    if b == [] then a == []
    else SubsequenceOf(a, b[1..]) || (a != [] && a[0] == b[0] && SubsequenceOf(a[1..], b[1..]))
  }

  lemma {:induction false} FilterIsSubsequence<T(!new)>(s: seq<T>, p: T -> bool)
    ensures SubsequenceOf(Filter(s, p), s)
  {
    if s != [] {
      FilterIsSubsequence(s[1..], p);
      if p(s[0]) {
        assert Filter(s, p) == [s[0]] + Filter(s[1..], p);
        assert Filter(s, p)[1..] == Filter(s[1..], p);
      } else {
        assert Filter(s, p) == Filter(s[1..], p);
      }
    }
  }

  /** JavaScript's `Array.prototype.map`. */
  function MapSeq<T, U>(s: seq<T>, f: T -> U): (r: seq<U>)
    ensures |r| == |s|
    ensures forall i :: 0 <= i < |s| ==> r[i] == f(s[i])
  {
    seq(|s|, i requires 0 <= i < |s| => f(s[i]))
  }

  lemma MapSeqAppend<T, U>(a: seq<T>, b: seq<T>, f: T -> U)
    ensures MapSeq(a + b, f) == MapSeq(a, f) + MapSeq(b, f)
  {
  }

  predicate SortedBy<T>(s: seq<T>, key: T -> int)
  {
    forall i, j :: 0 <= i < j < |s| ==> key(s[i]) <= key(s[j])
  }

  /** Inserts `x` before the first element whose key is not smaller. */
  function InsertBy<T(!new)>(x: T, s: seq<T>, key: T -> int): (r: seq<T>)
    requires SortedBy(s, key)
    ensures |r| == |s| + 1
    ensures r[0] == x || (s != [] && r[0] == s[0])
    ensures SortedBy(r, key)
    ensures multiset(r) == multiset(s) + multiset{x}
  {
    if s == [] then [x]
    else if key(x) <= key(s[0]) then
      PrependSorted(x, s, key);
      [x] + s
    else
      var rest := InsertBy(x, s[1..], key);
      InsertStep(x, s, rest, key);
      [s[0]] + rest
  }

  /** The recursive case of `InsertBy`: `x` went into the tail as `rest`. */
  lemma InsertStep<T>(x: T, s: seq<T>, rest: seq<T>, key: T -> int)
    requires s != [] && key(s[0]) < key(x) && SortedBy(s, key)
    requires rest != [] && (rest[0] == x || (|s| > 1 && rest[0] == s[1]))
    requires SortedBy(rest, key) && multiset(rest) == multiset(s[1..]) + multiset{x}
    ensures SortedBy([s[0]] + rest, key)
    ensures multiset([s[0]] + rest) == multiset(s) + multiset{x}
  {
    assert s == [s[0]] + s[1..];
    assert key(s[0]) <= key(rest[0]);
    PrependSorted(s[0], rest, key);
  }

  /** A sorted sequence stays sorted under a head no larger than its first key. */
  lemma PrependSorted<T>(h: T, t: seq<T>, key: T -> int)
    requires SortedBy(t, key) && (t != [] ==> key(h) <= key(t[0]))
    ensures SortedBy([h] + t, key)
  {
    var r := [h] + t;
    forall i, j | 0 <= i < j < |r| ensures key(r[i]) <= key(r[j]) {
      if i > 0 { assert r[i] == t[i - 1] && r[j] == t[j - 1]; }
      else { assert r[j] == t[j - 1]; }
    }
  }

  /** Insertion sort by ascending key. */
  function SortBy<T(!new)>(s: seq<T>, key: T -> int): (r: seq<T>)
    ensures SortedBy(r, key)
    ensures multiset(r) == multiset(s)
    ensures |r| == |s|
  {
    if s == [] then []
    else
      assert s == [s[0]] + s[1..];
      InsertBy(s[0], SortBy(s[1..], key), key)
  }

  /** Sorting commutes with any map that keeps every key. */
  lemma {:induction false} SortByMapCommutes<T(!new)>(s: seq<T>, key: T -> int, f: T -> T)
    requires forall x :: key(f(x)) == key(x)
    ensures SortBy(MapSeq(s, f), key) == MapSeq(SortBy(s, key), f)
  {
    if s != [] {
      assert MapSeq(s, f)[1..] == MapSeq(s[1..], f);
      SortByMapCommutes(s[1..], key, f);
      InsertByMapCommutes(s[0], SortBy(s[1..], key), key, f);
    }
  }

  lemma {:induction false} InsertByMapCommutes<T(!new)>(x: T, s: seq<T>, key: T -> int, f: T -> T)
    requires SortedBy(s, key)
    requires forall y :: key(f(y)) == key(y)
    ensures SortedBy(MapSeq(s, f), key)
    ensures InsertBy(f(x), MapSeq(s, f), key) == MapSeq(InsertBy(x, s, key), f)
  {
    if s != [] && key(x) > key(s[0]) {
      assert MapSeq(s, f)[1..] == MapSeq(s[1..], f);
      InsertByMapCommutes(x, s[1..], key, f);
    }
  }
}

=== FILE: server.dfy ===
/** The request handlers of the Express server, each a pure function from
    the store and the request to the response and the new store.

    The three collections are modelled as: listings in natural (insertion)
    order with a unique `id`, users keyed by their unique `email`, and
    messages in insertion order with a unique generated `_id`. `online`
    false stands for an unreachable database: every handler that touches
    the store then answers 500, after the request-shape checks that come
    before any database call. */
module Server {
  import opened Seqs
  import opened Model
  import opened Grouping

  datatype Store = Store(
    listings: seq<Listing>,
    users: map<string, User>,
    messages: seq<Message>,
    online: bool)

  /** What went wrong behind a 500 answer (the handler forwards `err.message`). */
  datatype Fault = Unavailable | ValidationFailed | DuplicateKey

  /** The JSON bodies the handlers answer with. */
  datatype Body =
    | Note(message: string)
    | Doc(listing: Listing)
    | Docs(listings: seq<Listing>)
    | Session(message: string, name: string, email: string)
    | ApprovedDoc(message: string, listing: Listing)
    | Groups(groups: seq<Group>)
    | ApprovedMsg(message: string, msg: Message)
    | Failure(fault: Fault)

  datatype Response = Response(status: int, body: Body)

  /** A handler's answer together with the store it leaves behind. */
  datatype Handled = Handled(response: Response, store: Store)

  const AllFieldsRequired: string := "All fields are required"
  const EmailTaken: string := "Email already registered"
  const Registered: string := "User registered successfully"
  const CredentialsRequired: string := "Email and password are required"
  const BadCredentials: string := "Invalid email or password"
  const LoggedIn: string := "Login successful"
  const RequiredFieldsMissing: string := "All required fields must be provided"
  const IdTaken: string := "Property with this ID already exists"
  const PropertyNotFound: string := "Property not found"
  const PropertyDeleted: string := "Property deleted"
  const PropertyApproved: string := "Property approved"
  const MessageSent: string := "Message sent successfully"
  const RequestNotFound: string := "Request not found"
  const RequestApproved: string := "Request approved"
  const UploadsPrefix: string := "/uploads/"

  function ServerError(f: Fault): Response
  {
    Response(500, Failure(f))
  }

  // ---------------------------------------------------------------------
  // Store invariant: what the database's unique indexes and schema keep.

  ghost predicate UniqueListingIds(ls: seq<Listing>)
  {
    forall i, j :: 0 <= i < j < |ls| ==> ls[i].id != ls[j].id
  }

  ghost predicate UniqueMessageIds(ms: seq<Message>)
  {
    forall i, j :: 0 <= i < j < |ms| ==> ms[i].mid != ms[j].mid
  }

  /** Mongoose's `required` validator on the listing's string fields
      (an empty string fails it; a number, even 0, passes). */
  predicate SchemaValid(l: Listing)
  {
    l.title != "" && l.state != "" && l.city != "" && l.location != ""
  }

  ghost predicate AllSchemaValid(ls: seq<Listing>)
  {
    forall i :: 0 <= i < |ls| ==> SchemaValid(ls[i])
  }

  ghost predicate Valid(s: Store)
  {
    && UniqueListingIds(s.listings)
    && AllSchemaValid(s.listings)
    && (forall e :: e in s.users ==> s.users[e].email == e)
    && UniqueMessageIds(s.messages)
  }

  /** `Property.findOne({ id })`: index of the first listing with `id`, or
      `|ls|` when there is none. */
  function FindListing(ls: seq<Listing>, id: int): (i: nat)
    ensures i <= |ls|
    ensures i < |ls| ==> ls[i].id == id
    ensures forall j :: 0 <= j < i ==> ls[j].id != id
  {
    FirstWhere(ls, HasId(id))
  }

  function HasId(id: int): Listing -> bool
  {
    (l: Listing) => l.id == id
  }

  /** `UserMessage.findById(mid)`: index of the message, or `|ms|`. */
  function FindMessage(ms: seq<Message>, mid: int): (i: nat)
    ensures i <= |ms|
    ensures i < |ms| ==> ms[i].mid == mid
    ensures forall j :: 0 <= j < i ==> ms[j].mid != mid
  {
    FirstWhere(ms, HasMid(mid))
  }

  function HasMid(mid: int): Message -> bool
  {
    (m: Message) => m.mid == mid
  }

  // ---------------------------------------------------------------------
  // Accounts

  /** `POST /api/register`. */
  function Register(s: Store, body: Registration, salt: nat): (r: Handled)
    ensures body.name == "" || body.email == "" || body.password == "" ==>
      r == Handled(Response(400, Note(AllFieldsRequired)), s)
    ensures r.response.status == 201 <==>
      body.name != "" && body.email != "" && body.password != "" && s.online && body.email !in s.users
    ensures body.email in s.users && body.email != "" && body.name != "" && body.password != "" && s.online ==>
      r.response == Response(400, Note(EmailTaken))
    ensures r.response.status != 201 ==> r.store == s
    ensures r.response.status == 201 ==>
      && r.response.body == Note(Registered)
      && r.store.users.Keys == s.users.Keys + {body.email}
      && r.store.users[body.email] == User(body.name, body.email, Hash(body.password, salt))
      && (forall e :: e in s.users ==> r.store.users[e] == s.users[e])
      && r.store.listings == s.listings && r.store.messages == s.messages
  {
    if body.name == "" || body.email == "" || body.password == "" then
      Handled(Response(400, Note(AllFieldsRequired)), s)
    else if !s.online then
      Handled(ServerError(Unavailable), s)
    else if body.email in s.users then
      Handled(Response(400, Note(EmailTaken)), s)
    else
      var user := User(body.name, body.email, Hash(body.password, salt));
      Handled(Response(201, Note(Registered)), s.(users := s.users[body.email := user]))
  }

  /** `POST /api/login`. */
  function Login(s: Store, body: Credentials): (r: Response)
    ensures body.email == "" || body.password == "" ==> r == Response(400, Note(CredentialsRequired))
    ensures r.status == 200 <==>
      && body.email != "" && body.password != "" && s.online
      && body.email in s.users && Matches(body.password, s.users[body.email].password)
    ensures r.status == 200 ==>
      r.body == Session(LoggedIn, s.users[body.email].name, s.users[body.email].email)
    ensures body.email != "" && body.password != "" && s.online && r.status != 200 ==>
      r == Response(401, Note(BadCredentials))
  {
    if body.email == "" || body.password == "" then
      Response(400, Note(CredentialsRequired))
    else if !s.online then
      ServerError(Unavailable)
    else if body.email !in s.users then
      Response(401, Note(BadCredentials))
    else if !Matches(body.password, s.users[body.email].password) then
      Response(401, Note(BadCredentials))
    else
      var user := s.users[body.email];
      Response(200, Session(LoggedIn, user.name, user.email))
  }

  /** An unknown email and a wrong password get the very same answer. */
  lemma {:induction false} LoginFailuresIndistinguishable(s: Store, unknown: Credentials, wrong: Credentials)
    requires s.online
    requires unknown.email != "" && unknown.password != "" && unknown.email !in s.users
    requires wrong.email != "" && wrong.password != "" && wrong.email in s.users
    requires !Matches(wrong.password, s.users[wrong.email].password)
    ensures Login(s, unknown) == Login(s, wrong) == Response(401, Note(BadCredentials))
  {
  }

  /** After a successful registration, login succeeds with exactly the
      registered password and answers with the name and email only. */
  lemma {:induction false} RegisterThenLogin(s: Store, body: Registration, salt: nat, password: string)
    requires Register(s, body, salt).response.status == 201
    requires password != ""
    ensures var s' := Register(s, body, salt).store;
      Login(s', Credentials(body.email, password)) ==
        if password == body.password then Response(200, Session(LoggedIn, body.name, body.email))
        else Response(401, Note(BadCredentials))
  {
    HashMatchesOnlyItsPassword(body.password, password, salt);
  }

  /** Registering an email twice: the second attempt is refused and
      changes nothing. */
  lemma {:induction false} RegisterTwiceRefused(s: Store, first: Registration, second: Registration, salt1: nat, salt2: nat)
    requires Register(s, first, salt1).response.status == 201
    requires second.email == first.email && second.name != "" && second.password != ""
    ensures var s' := Register(s, first, salt1).store;
      Register(s', second, salt2) == Handled(Response(400, Note(EmailTaken)), s')
  {
  }

  // ---------------------------------------------------------------------
  // Listings

  /** `GET /api/properties`. */
  function ListProperties(s: Store): (r: Response)
    ensures r.status == 200 <==> s.online
    ensures s.online ==> r.body == Docs(s.listings)
  {
    if !s.online then ServerError(Unavailable) else Response(200, Docs(s.listings))
  }

  /** `GET /api/properties/:id`. */
  function GetProperty(s: Store, id: int): (r: Response)
    ensures r.status == 404 <==> s.online && forall l :: l in s.listings ==> l.id != id
    ensures r.status == 200 <==> s.online && exists l :: l in s.listings && l.id == id
    ensures r.status == 200 ==> r.body.Doc? && r.body.listing in s.listings && r.body.listing.id == id
  {
    if !s.online then ServerError(Unavailable)
    else
      var i := FindListing(s.listings, id);
      if i == |s.listings| then Response(404, Note(PropertyNotFound))
      else Response(200, Doc(s.listings[i]))
  }

  /** The server's required-field check with `beds` and `baths` allowed to
      be 0: present, not truthy (see `RequiredFieldsAsWritten`). */
  predicate RequiredFields(b: ListingFields)
  {
    && Truthy(b.id) && b.title != "" && b.state != "" && b.city != "" && b.location != ""
    && Truthy(b.price) && b.beds.Some? && b.baths.Some?
  }

  /** The required-field check as `server/index.js` writes it: every field must be
      truthy, so a listing with 0 bedrooms or 0 bathrooms is refused. */
  predicate RequiredFieldsAsWritten(b: ListingFields)
  {
    && Truthy(b.id) && b.title != "" && b.state != "" && b.city != "" && b.location != ""
    && Truthy(b.price) && Truthy(b.beds) && Truthy(b.baths)
  }

  /** Image precedence: the uploaded file, else the body's URL, else the
      placeholder. */
  function ImageUrlFor(b: ListingFields, upload: Option<string>): (u: string)
    ensures upload.Some? ==> u == UploadsPrefix + upload.value
    ensures upload.None? && b.imageUrl != "" ==> u == b.imageUrl
    ensures upload.None? && b.imageUrl == "" ==> u == Placeholder
  {
    if upload.Some? then UploadsPrefix + upload.value else Or(b.imageUrl, Placeholder)
  }

  /** The document `new Property({...})` builds from a checked body. */
  function NewListing(b: ListingFields, upload: Option<string>): Listing
  {
    Listing(ValueOf(b.id), b.title, b.state, b.city, b.location,
            ValueOf(b.price), ValueOf(b.beds), ValueOf(b.baths),
            b.imageDesc, ImageUrlFor(b, upload), false)
  }

  /** Saving a new document: 500 when the store is down, 400 on the unique
      `id` index, otherwise appended. */
  function SaveNew(s: Store, l: Listing): (r: Handled)
    ensures r.response.status == 201 <==> s.online && forall x :: x in s.listings ==> x.id != l.id
    ensures r.response.status != 201 ==> r.store == s
    ensures s.online && r.response.status != 201 ==> r.response == Response(400, Note(IdTaken))
    ensures r.response.status == 201 ==>
      r.response.body == Doc(l) && r.store == s.(listings := s.listings + [l])
  {
    if !s.online then Handled(ServerError(Unavailable), s)
    else if FindListing(s.listings, l.id) < |s.listings| then Handled(Response(400, Note(IdTaken)), s)
    else Handled(Response(201, Doc(l)), s.(listings := s.listings + [l]))
  }

  /** `POST /api/properties`, with the zero-bedroom fix. */
  function CreateProperty(s: Store, b: ListingFields, upload: Option<string>): (r: Handled)
    ensures !RequiredFields(b) ==> r == Handled(Response(400, Note(RequiredFieldsMissing)), s)
    ensures r.response.status == 201 <==>
      RequiredFields(b) && s.online && forall x :: x in s.listings ==> x.id != ValueOf(b.id)
    ensures r.response.status != 201 ==> r.store == s
    ensures r.response.status == 201 ==>
      && r.response.body == Doc(NewListing(b, upload))
      && r.store.listings == s.listings + [NewListing(b, upload)]
      && r.store.users == s.users && r.store.messages == s.messages
  {
    if !RequiredFields(b) then Handled(Response(400, Note(RequiredFieldsMissing)), s)
    else SaveNew(s, NewListing(b, upload))
  }

  /** `POST /api/properties` as `server/index.js` writes it. */
  function CreatePropertyAsWritten(s: Store, b: ListingFields, upload: Option<string>): (r: Handled)
    ensures !RequiredFieldsAsWritten(b) ==> r == Handled(Response(400, Note(RequiredFieldsMissing)), s)
    ensures RequiredFieldsAsWritten(b) ==> r == CreateProperty(s, b, upload)
  {
    if !RequiredFieldsAsWritten(b) then Handled(Response(400, Note(RequiredFieldsMissing)), s)
    else SaveNew(s, NewListing(b, upload))
  }

  /** A studio (0 bedrooms) that the corrected check accepts is refused by
      the check as written. */
  lemma {:induction false} ZeroBedroomsRefusedAsWritten(s: Store, b: ListingFields, upload: Option<string>)
    requires RequiredFields(b) && b.beds == Some(0)
    requires s.online && forall x :: x in s.listings ==> x.id != ValueOf(b.id)
    ensures CreateProperty(s, b, upload).response.status == 201
    ensures CreatePropertyAsWritten(s, b, upload).response == Response(400, Note(RequiredFieldsMissing))
  {
  }

  /** The full list and the single read agree: a listing is found by id
      exactly when the list holds one with that id, and the one found is
      the first such in the list. */
  lemma ListAgreesWithGet(s: Store, id: int)
    requires s.online
    ensures var all := ListProperties(s).body.listings;
      var r := GetProperty(s, id);
      && (r.status == 200 <==> exists l :: l in all && l.id == id)
      && (r.status == 200 ==> r.body == Doc(all[FindListing(all, id)]))
  {
  }

  /** After a successful create, the list is the earlier list followed by
      the new listing. */
  lemma CreateThenList(s: Store, b: ListingFields, upload: Option<string>)
    requires CreateProperty(s, b, upload).response.status == 201
    ensures ListProperties(CreateProperty(s, b, upload).store) ==
      Response(200, Docs(ListProperties(s).body.listings + [NewListing(b, upload)]))
  {
  }

  /** A created listing reads back with the submitted fields, the image by
      precedence, and `approved` false. */
  lemma {:induction false} CreateThenGet(s: Store, b: ListingFields, upload: Option<string>)
    requires CreateProperty(s, b, upload).response.status == 201
    ensures var r := GetProperty(CreateProperty(s, b, upload).store, ValueOf(b.id));
      && r.status == 200 && r.body.Doc?
      && r.body.listing.id == ValueOf(b.id)
      && r.body.listing.title == b.title && r.body.listing.state == b.state
      && r.body.listing.city == b.city && r.body.listing.location == b.location
      && r.body.listing.price == ValueOf(b.price)
      && r.body.listing.beds == ValueOf(b.beds) && r.body.listing.baths == ValueOf(b.baths)
      && r.body.listing.imageDesc == b.imageDesc
      && r.body.listing.imageUrl == ImageUrlFor(b, upload)
      && !r.body.listing.approved
  {
    var ls := s.listings;
    var l := NewListing(b, upload);
    assert FindListing(ls, l.id) == |ls|;
    FindListingAppend(ls, l);
  }

  lemma {:induction false} FindListingAppend(ls: seq<Listing>, l: Listing)
    requires FindListing(ls, l.id) == |ls|
    ensures FindListing(ls + [l], l.id) == |ls|
  {
    FirstWherePrefix(ls, [l], HasId(l.id));
  }

  /** Creating a second listing with a taken id is refused and leaves the
      first untouched. */
  lemma {:induction false} CreateDuplicateRefused(s: Store, first: ListingFields, second: ListingFields, u1: Option<string>, u2: Option<string>)
    requires CreateProperty(s, first, u1).response.status == 201
    requires RequiredFields(second) && second.id == first.id
    ensures var s' := CreateProperty(s, first, u1).store;
      CreateProperty(s', second, u2) == Handled(Response(400, Note(IdTaken)), s')
  {
    var s' := CreateProperty(s, first, u1).store;
    assert NewListing(first, u1) in s'.listings;
  }

  /** The patch's value for a field when it carries one, else the stored one. */
  function Pick<T>(patched: Option<T>, stored: T): T
  {
    if patched.Some? then patched.value else stored
  }

  /** `Object.assign(property, body)`: every field present in the patch
      overwrites the stored one; a field the patch leaves out is kept. */
  function Merge(l: Listing, p: ListingPatch): (r: Listing)
    ensures p.id.None? ==> r.id == l.id
    ensures p.title.None? ==> r.title == l.title
    ensures p.state.None? ==> r.state == l.state
    ensures p.city.None? ==> r.city == l.city
    ensures p.location.None? ==> r.location == l.location
    ensures p.price.None? ==> r.price == l.price
    ensures p.beds.None? ==> r.beds == l.beds
    ensures p.baths.None? ==> r.baths == l.baths
    ensures p.imageDesc.None? ==> r.imageDesc == l.imageDesc
    ensures p.imageUrl.None? ==> r.imageUrl == l.imageUrl
    ensures p.approved.None? ==> r.approved == l.approved
    ensures p.id.Some? ==> r.id == p.id.value
    ensures p.title.Some? ==> r.title == p.title.value
    ensures p.state.Some? ==> r.state == p.state.value
    ensures p.city.Some? ==> r.city == p.city.value
    ensures p.location.Some? ==> r.location == p.location.value
    ensures p.price.Some? ==> r.price == p.price.value
    ensures p.beds.Some? ==> r.beds == p.beds.value
    ensures p.baths.Some? ==> r.baths == p.baths.value
    ensures p.imageDesc.Some? ==> r.imageDesc == p.imageDesc.value
    ensures p.imageUrl.Some? ==> r.imageUrl == p.imageUrl.value
    ensures p.approved.Some? ==> r.approved == p.approved.value
  {
    Listing(
      Pick(p.id, l.id), Pick(p.title, l.title), Pick(p.state, l.state), Pick(p.city, l.city),
      Pick(p.location, l.location), Pick(p.price, l.price), Pick(p.beds, l.beds),
      Pick(p.baths, l.baths), Pick(p.imageDesc, l.imageDesc), Pick(p.imageUrl, l.imageUrl),
      Pick(p.approved, l.approved))
  }

  const EmptyPatch: ListingPatch :=
    ListingPatch(None, None, None, None, None, None, None, None, None, None, None)

  /** The patch that applies `q` over `p`. */
  function Then(p: ListingPatch, q: ListingPatch): ListingPatch
  {
    ListingPatch(
      if q.id.Some? then q.id else p.id,
      if q.title.Some? then q.title else p.title,
      if q.state.Some? then q.state else p.state,
      if q.city.Some? then q.city else p.city,
      if q.location.Some? then q.location else p.location,
      if q.price.Some? then q.price else p.price,
      if q.beds.Some? then q.beds else p.beds,
      if q.baths.Some? then q.baths else p.baths,
      if q.imageDesc.Some? then q.imageDesc else p.imageDesc,
      if q.imageUrl.Some? then q.imageUrl else p.imageUrl,
      if q.approved.Some? then q.approved else p.approved)
  }

  /** Merging is a right action: an empty patch changes nothing, a patch
      applied twice is applied once, and two merges are one merge. */
  lemma {:induction false} MergeLaws(l: Listing, p: ListingPatch, q: ListingPatch)
    ensures Merge(l, EmptyPatch) == l
    ensures Merge(Merge(l, p), p) == Merge(l, p)
    ensures Merge(Merge(l, p), q) == Merge(l, Then(p, q))
  {
  }

  /** `update(id, {price})` changes the price and nothing else. */
  lemma {:induction false} MergePriceOnly(l: Listing, price: int)
    ensures Merge(l, EmptyPatch.(price := Some(price))) == l.(price := price)
  {
  }

  /** Some listing other than the one at `i` has id `k`. */
  predicate IdTakenElsewhere(ls: seq<Listing>, i: nat, k: int)
  {
    exists j :: 0 <= j < |ls| && j != i && ls[j].id == k
  }

  /** `PUT /api/properties/:id`. */
  function UpdateProperty(s: Store, id: int, patch: ListingPatch): (r: Handled)
    ensures r.response.status == 404 <==> s.online && forall l :: l in s.listings ==> l.id != id
    ensures var i := FindListing(s.listings, id);
      r.response.status == 200 <==>
        && s.online && i < |s.listings|
        && SchemaValid(Merge(s.listings[i], patch))
        && !IdTakenElsewhere(s.listings, i, Merge(s.listings[i], patch).id)
    ensures r.response.status != 200 ==> r.store == s
    ensures var i := FindListing(s.listings, id);
      r.response.status == 200 ==>
        && i < |s.listings| && s.listings[i].id == id
        && r.response.body == Doc(Merge(s.listings[i], patch))
        && r.store == s.(listings := s.listings[i := Merge(s.listings[i], patch)])
  {
    if !s.online then Handled(ServerError(Unavailable), s)
    else
      var ls := s.listings;
      var i := FindListing(ls, id);
      if i == |ls| then Handled(Response(404, Note(PropertyNotFound)), s)
      else
        var merged := Merge(ls[i], patch);
        if !SchemaValid(merged) then Handled(ServerError(ValidationFailed), s)
        else if IdTakenElsewhere(ls, i, merged.id) then Handled(ServerError(DuplicateKey), s)
        else Handled(Response(200, Doc(merged)), s.(listings := ls[i := merged]))
  }

  /** `DELETE /api/properties/:id`. */
  function DeleteProperty(s: Store, id: int): (r: Handled)
    ensures r.response.status == 404 <==> s.online && forall l :: l in s.listings ==> l.id != id
    ensures r.response.status == 200 <==> s.online && exists l :: l in s.listings && l.id == id
    ensures r.response.status != 200 ==> r.store == s
    ensures var i := FindListing(s.listings, id);
      r.response.status == 200 ==>
        && i < |s.listings| && s.listings[i].id == id
        && r.store == s.(listings := s.listings[..i] + s.listings[i+1..])
    ensures r.response.status == 200 ==> r.response.body == Note(PropertyDeleted)
  {
    if !s.online then Handled(ServerError(Unavailable), s)
    else
      var ls := s.listings;
      var i := FindListing(ls, id);
      if i == |ls| then Handled(Response(404, Note(PropertyNotFound)), s)
      else Handled(Response(200, Note(PropertyDeleted)), s.(listings := ls[..i] + ls[i+1..]))
  }

  /** `PUT /api/properties/:id/approve`. */
  function ApproveProperty(s: Store, id: int): (r: Handled)
    ensures r.response.status == 404 <==> s.online && forall l :: l in s.listings ==> l.id != id
    ensures r.response.status == 200 <==> s.online && exists l :: l in s.listings && l.id == id
    ensures r.response.status != 200 ==> r.store == s
    ensures var i := FindListing(s.listings, id);
      r.response.status == 200 ==>
        && i < |s.listings| && s.listings[i].id == id
        && r.response.body == ApprovedDoc(PropertyApproved, s.listings[i].(approved := true))
        && r.store == s.(listings := s.listings[i := s.listings[i].(approved := true)])
  {
    if !s.online then Handled(ServerError(Unavailable), s)
    else
      var ls := s.listings;
      var i := FindListing(ls, id);
      if i == |ls| then Handled(Response(404, Note(PropertyNotFound)), s)
      else
        var approved := ls[i].(approved := true);
        Handled(Response(200, ApprovedDoc(PropertyApproved, approved)), s.(listings := ls[i := approved]))
  }

  /** Approving twice answers the same and leaves the same store. */
  lemma {:induction false} ApprovePropertyIdempotent(s: Store, id: int)
    requires ApproveProperty(s, id).response.status == 200
    ensures var once := ApproveProperty(s, id);
      ApproveProperty(once.store, id) == once
  {
    var ls := s.listings;
    var i := FindListing(ls, id);
    var ls' := ls[i := ls[i].(approved := true)];
    FindListingUpdate(ls, i, ls[i].(approved := true), id);
    assert ls'[i := ls'[i].(approved := true)] == ls';
  }

  /** Replacing a listing by one with the same id keeps lookups. */
  lemma {:induction false} FindListingUpdate(ls: seq<Listing>, i: nat, l: Listing, id: int)
    requires i < |ls| && l.id == ls[i].id
    ensures FindListing(ls[i := l], id) == FindListing(ls, id)
  {
    FirstWhereUpdate(ls, i, l, HasId(id));
  }

  /** Deleting removes exactly the listing with that id and keeps the
      others in order. */
  lemma {:induction false} DeleteRemovesExactlyThatListing(s: Store, id: int)
    requires Valid(s)
    requires DeleteProperty(s, id).response.status == 200
    ensures var ls' := DeleteProperty(s, id).store.listings;
      && |ls'| == |s.listings| - 1
      && (forall l :: l in ls' <==> l in s.listings && l.id != id)
      && SubsequenceOf(ls', s.listings)
  {
    var ls := s.listings;
    var i := FindListing(ls, id);
    SkipOneMembers(ls, i);
    SkipOneIsSubsequence(ls, i);
  }

  /** Removing the listing at `i` keeps exactly the listings with another
      id, when ids are unique. */
  lemma {:induction false} SkipOneMembers(ls: seq<Listing>, i: nat)
    requires UniqueListingIds(ls) && i < |ls|
    ensures forall l :: l in ls[..i] + ls[i+1..] <==> l in ls && l.id != ls[i].id
  {
    var ls' := ls[..i] + ls[i+1..];
    SkipOneIndex(ls, i, ls');
    forall l | l in ls'
      ensures l in ls && l.id != ls[i].id
    {
      var j :| 0 <= j < |ls'| && ls'[j] == l;
      if j < i { assert ls[j] == l; } else { assert ls[j + 1] == l; }
    }
    forall l | l in ls && l.id != ls[i].id
      ensures l in ls'
    {
      var j :| 0 <= j < |ls| && ls[j] == l;
      if j < i { assert ls'[j] == l; } else { assert ls'[j - 1] == l; }
    }
  }

  /** Where each element of `r`, the sequence `s` with `s[i]` removed, comes from. */
  lemma SkipOneIndex<T>(s: seq<T>, i: nat, r: seq<T>)
    requires i < |s| && r == s[..i] + s[i+1..]
    ensures |r| == |s| - 1
    ensures forall j :: 0 <= j < i ==> r[j] == s[j]
    ensures forall j :: i <= j < |r| ==> r[j] == s[j + 1]
  {
  }

  lemma {:induction false} SkipOneIsSubsequence<T>(s: seq<T>, i: nat)
    requires i < |s|
    ensures SubsequenceOf(s[..i] + s[i+1..], s)
  {
    if i == 0 {
      assert s[..0] + s[1..] == s[1..];
      SelfSubsequence(s[1..]);
    } else {
      SkipOneIsSubsequence(s[1..], i - 1);
      assert (s[..i] + s[i+1..])[1..] == s[1..][..i-1] + s[1..][i..];
    }
  }

  lemma {:induction false} SelfSubsequence<T>(s: seq<T>)
    ensures SubsequenceOf(s, s)
  {
    if s != [] {
      SelfSubsequence(s[1..]);
    }
  }

  // ---------------------------------------------------------------------
  // Messages

  /** `POST /api/messages`: `mid` and `now` stand for the generated `_id`
      and `Date.now`. */
  function SubmitMessage(s: Store, b: MessageFields, mid: int, now: int): (r: Handled)
    ensures !Truthy(b.propertyId) || b.propertyTitle == "" || b.userName == "" || b.userEmail == "" || b.message == "" ==>
      r == Handled(Response(400, Note(RequiredFieldsMissing)), s)
    ensures r.response.status == 201 <==>
      && Truthy(b.propertyId) && b.propertyTitle != "" && b.userName != "" && b.userEmail != "" && b.message != ""
      && s.online && forall m :: m in s.messages ==> m.mid != mid
    ensures r.response.status != 201 ==> r.store == s
    ensures r.response.status == 201 ==>
      && r.response.body == Note(MessageSent)
      && r.store.listings == s.listings && r.store.users == s.users
      && |r.store.messages| == |s.messages| + 1
      && r.store.messages[..|s.messages|] == s.messages
      && r.store.messages[|s.messages|] ==
           Message(mid, ValueOf(b.propertyId), b.propertyTitle, b.userName, b.userEmail,
                   b.userPhone, b.message, StatusPending, now)
  {
    if !Truthy(b.propertyId) || b.propertyTitle == "" || b.userName == "" || b.userEmail == "" || b.message == "" then
      Handled(Response(400, Note(RequiredFieldsMissing)), s)
    else if !s.online then Handled(ServerError(Unavailable), s)
    else if FindMessage(s.messages, mid) < |s.messages| then Handled(ServerError(DuplicateKey), s)
    else
      var m := Message(mid, ValueOf(b.propertyId), b.propertyTitle, b.userName, b.userEmail,
                       b.userPhone, b.message, StatusPending, now);
      Handled(Response(201, Note(MessageSent)), s.(messages := s.messages + [m]))
  }

  /** The read-time projection served by `GET /api/messages`: a correct
      grouping of the newest-first messages that holds every message once. */
  function GroupedView(ms: seq<Message>): (r: seq<Group>)
    ensures GroupsOf(SortNewestFirst(ms), r)
    ensures Total(r) == |ms|
  {
    GroupByPropertyCorrect(SortNewestFirst(ms));
    GroupByPropertyTotal(SortNewestFirst(ms));
    GroupByProperty(SortNewestFirst(ms))
  }

  /** `GET /api/messages`, in first-encounter group order (see
      `GroupByPropertyAsWritten` for the order the handler produces). */
  function ListMessagesGrouped(s: Store): (r: Response)
    ensures r.status == 200 <==> s.online
    ensures s.online ==>
      && r.body.Groups?
      && GroupsOf(SortNewestFirst(s.messages), r.body.groups)
      && Total(r.body.groups) == |s.messages|
  {
    if !s.online then ServerError(Unavailable)
    else
      Response(200, Groups(GroupedView(s.messages)))
  }

  /** `PUT /api/messages/:id/approve`. */
  function ApproveMessage(s: Store, mid: int): (r: Handled)
    ensures r.response.status == 404 <==> s.online && forall m :: m in s.messages ==> m.mid != mid
    ensures r.response.status == 200 <==> s.online && exists m :: m in s.messages && m.mid == mid
    ensures r.response.status != 200 ==> r.store == s
    ensures var i := FindMessage(s.messages, mid);
      r.response.status == 200 ==>
        && i < |s.messages| && s.messages[i].mid == mid
        && r.response.body == ApprovedMsg(RequestApproved, s.messages[i].(status := StatusApproved))
        && r.store == s.(messages := s.messages[i := s.messages[i].(status := StatusApproved)])
  {
    if !s.online then Handled(ServerError(Unavailable), s)
    else
      var ms := s.messages;
      var i := FindMessage(ms, mid);
      if i == |ms| then Handled(Response(404, Note(RequestNotFound)), s)
      else
        var approved := ms[i].(status := StatusApproved);
        Handled(Response(200, ApprovedMsg(RequestApproved, approved)), s.(messages := ms[i := approved]))
  }

  /** Approving a request twice answers the same and leaves the same store. */
  lemma {:induction false} ApproveMessageIdempotent(s: Store, mid: int)
    requires ApproveMessage(s, mid).response.status == 200
    ensures var once := ApproveMessage(s, mid);
      ApproveMessage(once.store, mid) == once
  {
    var ms := s.messages;
    var i := FindMessage(ms, mid);
    var ms' := ms[i := ms[i].(status := StatusApproved)];
    FindMessageUpdate(ms, i, ms[i].(status := StatusApproved), mid);
    assert ms'[i := ms'[i].(status := StatusApproved)] == ms';
  }

  lemma {:induction false} FindMessageUpdate(ms: seq<Message>, i: nat, m: Message, mid: int)
    requires i < |ms| && m.mid == ms[i].mid
    ensures FindMessage(ms[i := m], mid) == FindMessage(ms, mid)
  {
    FirstWhereUpdate(ms, i, m, HasMid(mid));
  }

  // ---------------------------------------------------------------------
  // Every handler keeps the store invariant.

  lemma {:induction false} RegisterPreservesValid(s: Store, body: Registration, salt: nat)
    requires Valid(s)
    ensures Valid(Register(s, body, salt).store)
  {
  }

  lemma {:induction false} CreatePreservesValid(s: Store, b: ListingFields, upload: Option<string>)
    requires Valid(s)
    ensures Valid(CreateProperty(s, b, upload).store)
  {
    var r := CreateProperty(s, b, upload);
    if r.response.status == 201 {
      var ls, l := s.listings, NewListing(b, upload);
      assert forall i :: 0 <= i < |ls| ==> ls[i].id != l.id by {
        forall i | 0 <= i < |ls| ensures ls[i].id != l.id { assert ls[i] in ls; }
      }
      assert r.store.listings == ls + [l];
    }
  }

  lemma {:induction false} UpdatePreservesValid(s: Store, id: int, patch: ListingPatch)
    requires Valid(s)
    ensures Valid(UpdateProperty(s, id, patch).store)
  {
    var r := UpdateProperty(s, id, patch);
    if r.response.status == 200 {
      var ls := s.listings;
      var i := FindListing(ls, id);
      var merged := Merge(ls[i], patch);
      assert !IdTakenElsewhere(ls, i, merged.id);
      assert r.store.listings == ls[i := merged];
    }
  }

  lemma {:induction false} DeletePreservesValid(s: Store, id: int)
    requires Valid(s)
    ensures Valid(DeleteProperty(s, id).store)
  {
    var r := DeleteProperty(s, id);
    if r.response.status == 200 {
      var ls := s.listings;
      var i := FindListing(ls, id);
      assert r.store == s.(listings := ls[..i] + ls[i+1..]);
      SkipOneKeepsListingsValid(ls, i);
    }
  }

  /** Removing one listing keeps ids unique and every listing schema-valid. */
  lemma {:induction false} SkipOneKeepsListingsValid(ls: seq<Listing>, i: nat)
    requires i < |ls| && UniqueListingIds(ls)
    requires AllSchemaValid(ls)
    ensures UniqueListingIds(ls[..i] + ls[i+1..])
    ensures AllSchemaValid(ls[..i] + ls[i+1..])
  {
    var ls' := ls[..i] + ls[i+1..];
    assert forall j :: 0 <= j < |ls'| ==> ls'[j] == if j < i then ls[j] else ls[j + 1];
  }

  lemma {:induction false} ApprovePreservesValid(s: Store, id: int)
    requires Valid(s)
    ensures Valid(ApproveProperty(s, id).store)
  {
  }

  lemma {:induction false} SubmitPreservesValid(s: Store, b: MessageFields, mid: int, now: int)
    requires Valid(s)
    ensures Valid(SubmitMessage(s, b, mid, now).store)
  {
    var r := SubmitMessage(s, b, mid, now);
    if r.response.status == 201 {
      var ms := s.messages;
      assert forall i :: 0 <= i < |ms| ==> ms[i].mid != mid by {
        forall i | 0 <= i < |ms| ensures ms[i].mid != mid { assert ms[i] in ms; }
      }
      assert r.store.messages == ms + [r.store.messages[|ms|]];
    }
  }

  lemma {:induction false} ApproveMessagePreservesValid(s: Store, mid: int)
    requires Valid(s)
    ensures Valid(ApproveMessage(s, mid).store)
  {
  }
}

=== FILE: shortlist.dfy ===
/** The visitor's shortlist page: the grouped requests fetched from the
    server are flattened back into single requests, each annotated with its
    group's property, and filtered down to the logged-in visitor's email.
    Flattening undoes the server's grouping, up to order and up to the title,
    which becomes the title of the property's newest message. */
module Shortlist {
  import opened Seqs
  import opened Model
  import opened Grouping
  import Server

  /** One shortlist entry: a grouped message with its group's property. */
  datatype Request = Request(entry: Entry, propertyTitle: string, propertyId: int)

  /** `group.messages.map(msg => ({ ...msg, propertyTitle, propertyId }))`. */
  function Annotate(g: Group): (r: seq<Request>)
    ensures |r| == |g.messages|
    ensures forall j :: 0 <= j < |r| ==> r[j] == Request(g.messages[j], g.propertyTitle, g.propertyId)
  {
    MapSeq(g.messages, (e: Entry) => Request(e, g.propertyTitle, g.propertyId))
  }

  /** `res.data.flatMap(...)`: the annotated messages, group after group. */
  function Flatten(gs: seq<Group>): (r: seq<Request>)
    ensures |r| == Total(gs)
  {
    if gs == [] then [] else Annotate(gs[0]) + Flatten(gs[1..])
  }

  function FromUser(email: string): Request -> bool
  {
    (r: Request) => r.entry.userEmail == email
  }

  /** The requests shown for `email`: exactly the flattened requests sent
      from that address, in their flattened order. */
  function UserRequests(gs: seq<Group>, email: string): (r: seq<Request>)
    ensures forall q :: q in r <==> q in Flatten(gs) && q.entry.userEmail == email
    ensures forall q :: multiset(r)[q] == if q.entry.userEmail == email then multiset(Flatten(gs))[q] else 0
    ensures SubsequenceOf(r, Flatten(gs))
  {
    FilterMembers(Flatten(gs), FromUser(email));
    FilterCount(Flatten(gs), FromUser(email));
    FilterIsSubsequence(Flatten(gs), FromUser(email));
    Filter(Flatten(gs), FromUser(email))
  }

  /** The page state: the requests shown and whether it is still loading. */
  datatype Page = Page(requests: seq<Request>, loading: bool)

  /** The page after the mount effect, and whether it asked the server. */
  datatype Fetched = Fetched(page: Page, sent: bool)

  /** The mount effect: nothing is fetched without a logged-in email;
      `reply` is the grouped answer, `None` when the request failed. */
  function Load(email: string, reply: Option<seq<Group>>): (r: Fetched)
    ensures r.sent <==> email != ""
    ensures email == "" ==> r.page == Page([], true)
    ensures email != "" ==> !r.page.loading
    ensures email != "" && reply.None? ==> r.page.requests == []
    ensures email != "" && reply.Some? ==>
      && (forall q :: q in r.page.requests <==> q in Flatten(reply.value) && q.entry.userEmail == email)
      && (forall q :: multiset(r.page.requests)[q] ==
            if q.entry.userEmail == email then multiset(Flatten(reply.value))[q] else 0)
      && SubsequenceOf(r.page.requests, Flatten(reply.value))
  {
    if email == "" then Fetched(Page([], true), false)
    else
      match reply
      case None => Fetched(Page([], false), true)
      case Some(gs) => Fetched(Page(UserRequests(gs, email), false), true)
  }

  /** The status badge. */
  function StatusLabel(status: string): (badge: string)
    ensures badge == "Approved" <==> status == StatusApproved
    ensures badge == "Approved" || badge == "Pending"
  {
    if status == StatusApproved then "Approved" else "Pending"
  }

  lemma FlattenCons(g: Group, gs: seq<Group>)
    ensures Flatten([g] + gs) == Annotate(g) + Flatten(gs)
  {
    assert ([g] + gs)[0] == g && ([g] + gs)[1..] == gs;
  }

  /** Every flattened request is a message of some group, carrying that
      group's title and property id, and every message of every group is
      flattened. */
  lemma {:induction false} FlattenMembers(gs: seq<Group>, q: Request)
    ensures q in Flatten(gs) <==>
      exists i, j :: 0 <= i < |gs| && 0 <= j < |gs[i].messages| &&
        q == Request(gs[i].messages[j], gs[i].propertyTitle, gs[i].propertyId)
  {
    if gs != [] {
      FlattenMembers(gs[1..], q);
      var a := Annotate(gs[0]);
      if q in a {
        var j :| 0 <= j < |a| && a[j] == q;
        assert q == Request(gs[0].messages[j], gs[0].propertyTitle, gs[0].propertyId);
      }
      if exists i, j :: 0 <= i < |gs| && 0 <= j < |gs[i].messages| &&
           q == Request(gs[i].messages[j], gs[i].propertyTitle, gs[i].propertyId) {
        var i, j :| 0 <= i < |gs| && 0 <= j < |gs[i].messages| &&
          q == Request(gs[i].messages[j], gs[i].propertyTitle, gs[i].propertyId);
        if i == 0 {
          assert a[j] == q;
        } else {
          assert gs[1..][i - 1] == gs[i];
        }
      }
    }
  }

  /** The request a message becomes after grouping and flattening: its own
      entry and property id, and the title of the first message about its
      property. */
  function Restored(ms: seq<Message>, m: Message): Request
  {
    Request(EntryOf(m), FirstTitle(ms, m.propertyId), m.propertyId)
  }

  /** Every message of `ms`, restored in the context of `ms`. */
  function RestoredAll(ms: seq<Message>): (r: seq<Request>)
    ensures |r| == |ms|
    ensures forall n :: 0 <= n < |ms| ==> r[n] == Restored(ms, ms[n])
  {
    seq(|ms|, n requires 0 <= n < |ms| => Restored(ms, ms[n]))
  }

  /** The title a message is shown under once grouped into `gs`: its group's,
      or its own when it opens a new group. */
  function JoinTitle(gs: seq<Group>, m: Message): string
  {
    var f := FirstGroup(gs, m.propertyId);
    if f < |gs| then gs[f].propertyTitle else m.propertyTitle
  }

  /** Past a first group with another key, the title is the one in the rest. */
  lemma JoinTitlePast(gs: seq<Group>, m: Message)
    requires gs != [] && gs[0].propertyId != m.propertyId
    ensures JoinTitle(gs, m) == JoinTitle(gs[1..], m)
  {
    FirstGroupPast(gs, m.propertyId);
  }

  /** One grouping step adds exactly one flattened request: the message,
      titled by its group (or by itself when it opens a new group). */
  lemma {:induction false} AddToFlatten(gs: seq<Group>, m: Message)
    ensures multiset(Flatten(AddTo(gs, m))) ==
      multiset(Flatten(gs)) + multiset{Request(EntryOf(m), JoinTitle(gs, m), m.propertyId)}
  {
    if gs == [] {
      FlattenCons(NewGroup(m), []);
      assert Annotate(NewGroup(m)) == [Request(EntryOf(m), m.propertyTitle, m.propertyId)];
    } else if gs[0].propertyId == m.propertyId {
      AddToFlattenHere(gs, m);
    } else {
      JoinTitlePast(gs, m);
      AddToFlatten(gs[1..], m);
      AddToFlattenPast(gs, m, Request(EntryOf(m), JoinTitle(gs, m), m.propertyId));
    }
  }

  /** The message joins the first group: its requests gain one at the end. */
  lemma AddToFlattenHere(gs: seq<Group>, m: Message)
    requires gs != [] && gs[0].propertyId == m.propertyId
    ensures multiset(Flatten(AddTo(gs, m))) ==
      multiset(Flatten(gs)) + multiset{Request(EntryOf(m), gs[0].propertyTitle, m.propertyId)}
  {
    var g := Extend(gs[0], m);
    assert gs == [gs[0]] + gs[1..];
    assert AddTo(gs, m) == [g] + gs[1..];
    FlattenCons(gs[0], gs[1..]);
    FlattenCons(g, gs[1..]);
    assert Annotate(g) == Annotate(gs[0]) + [Request(EntryOf(m), gs[0].propertyTitle, m.propertyId)];
  }

  /** The message goes past the first group: what the rest gains, the whole gains. */
  lemma AddToFlattenPast(gs: seq<Group>, m: Message, q: Request)
    requires gs != [] && gs[0].propertyId != m.propertyId
    requires multiset(Flatten(AddTo(gs[1..], m))) == multiset(Flatten(gs[1..])) + multiset{q}
    ensures multiset(Flatten(AddTo(gs, m))) == multiset(Flatten(gs)) + multiset{q}
  {
    FlattenPast(gs, m);
    MultisetPrefixStep(Annotate(gs[0]), Flatten(AddTo(gs[1..], m)), Flatten(gs[1..]), q);
  }

  /** Going past the first group leaves its requests at the front. */
  lemma FlattenPast(gs: seq<Group>, m: Message)
    requires gs != [] && gs[0].propertyId != m.propertyId
    ensures Flatten(gs) == Annotate(gs[0]) + Flatten(gs[1..])
    ensures Flatten(AddTo(gs, m)) == Annotate(gs[0]) + Flatten(AddTo(gs[1..], m))
  {
    assert gs == [gs[0]] + gs[1..];
    FlattenCons(gs[0], gs[1..]);
    assert AddTo(gs, m) == [gs[0]] + AddTo(gs[1..], m);
    FlattenCons(gs[0], AddTo(gs[1..], m));
  }

  /** One more element after a common prefix is one more in the whole. */
  lemma MultisetPrefixStep<T>(head: seq<T>, a: seq<T>, b: seq<T>, q: T)
    requires multiset(a) == multiset(b) + multiset{q}
    ensures multiset(head + a) == multiset(head + b) + multiset{q}
  {
    assert multiset(head + a) == multiset(head) + multiset(a);
    assert multiset(head + b) == multiset(head) + multiset(b);
  }

  /** Restoring the earlier messages does not depend on later ones. */
  lemma RestoredAllAppend(ms: seq<Message>, m: Message)
    ensures RestoredAll(ms + [m]) == RestoredAll(ms) + [Restored(ms + [m], m)]
  {
    var all := ms + [m];
    forall n | 0 <= n < |ms| ensures Restored(all, ms[n]) == Restored(ms, ms[n]) {
      FirstIndexAppend(ms, m, ms[n].propertyId);
      assert FirstIndex(ms, ms[n].propertyId) <= n;
      assert all[FirstIndex(ms, ms[n].propertyId)] == ms[FirstIndex(ms, ms[n].propertyId)];
    }
  }

  /** The title a new message gets from the grouping built so far is the
      first title of its property in the messages including it. */
  lemma TitleOfNext(ms: seq<Message>, m: Message)
    ensures var gs := GroupByProperty(ms);
      var f := FirstGroup(gs, m.propertyId);
      (if f < |gs| then gs[f].propertyTitle else m.propertyTitle) == FirstTitle(ms + [m], m.propertyId)
  {
    var gs := GroupByProperty(ms);
    var k := m.propertyId;
    var f := FirstGroup(gs, k);
    GroupByPropertyCorrect(ms);
    FirstIndexAppend(ms, m, k);
    if f < |gs| {
      assert gs[f].propertyTitle == FirstTitle(ms, k);
      assert FirstIndex(ms, k) < |ms|;
      assert (ms + [m])[FirstIndex(ms, k)] == ms[FirstIndex(ms, k)];
    } else if FirstIndex(ms, k) < |ms| {
      assert false;
    } else {
      assert (ms + [m])[|ms|] == m;
    }
  }

  /** Flattening the grouping of `ms` gives back every message exactly once
      (a permutation), with its entry and property id restored and titled by
      the first message about its property. */
  lemma {:induction false} FlattenUndoesGrouping(ms: seq<Message>)
    ensures multiset(Flatten(GroupByProperty(ms))) == multiset(RestoredAll(ms))
  {
    if ms != [] {
      var init, m := ms[..|ms| - 1], ms[|ms| - 1];
      assert ms == init + [m];
      FlattenUndoesGrouping(init);
      AddToFlatten(GroupByProperty(init), m);
      TitleOfNext(init, m);
      RestoredAllAppend(init, m);
    }
  }

  /** The shortlist for `email`, as served by `GET /api/messages`, holds
      exactly that visitor's messages, each as often as it was sent. */
  lemma ShortlistIsUsersMessages(ms: seq<Message>, email: string)
    ensures var sorted := SortNewestFirst(ms);
      forall q :: multiset(UserRequests(Server.GroupedView(ms), email))[q] ==
        if q.entry.userEmail == email then multiset(RestoredAll(sorted))[q] else 0
  {
    var sorted := SortNewestFirst(ms);
    FlattenUndoesGrouping(sorted);
    FilterCount(Flatten(GroupByProperty(sorted)), FromUser(email));
  }

  /** A flattened request can carry a title other than its message's own:
      an older message about the same property shows the newer title. */
  lemma TitleTakenFromNewest()
    ensures var older := Message(1, 7, "Old title", "Ann", "ann@example.com", None, "Hi", StatusPending, 10);
      var newer := Message(2, 7, "New title", "Bob", "bob@example.com", None, "Hello", StatusPending, 20);
      Restored([newer, older], older).propertyTitle == "New title"
  {
  }

  /** Every stored message appears on its sender's shortlist. */
  lemma MessageOnShortlist(ms: seq<Message>, n: nat)
    requires n < |ms|
    ensures Restored(SortNewestFirst(ms), ms[n]) in UserRequests(Server.GroupedView(ms), ms[n].userEmail)
  {
    var m := ms[n];
    var sorted := SortNewestFirst(ms);
    var flat := Flatten(GroupByProperty(sorted));
    assert m in multiset(ms);
    assert m in multiset(sorted);
    var k :| 0 <= k < |sorted| && sorted[k] == m;
    var q := Restored(sorted, m);
    assert RestoredAll(sorted)[k] == q;
    assert q in multiset(RestoredAll(sorted));
    FlattenUndoesGrouping(sorted);
    assert q in flat;
    FilterMembers(flat, FromUser(m.userEmail));
  }

  /** A message just submitted shows up on its sender's shortlist, marked
      Pending. */
  lemma SubmittedShowsPending(s: Server.Store, b: MessageFields, mid: int, now: int)
    requires Server.SubmitMessage(s, b, mid, now).response.status == 201
    ensures var ms := Server.SubmitMessage(s, b, mid, now).store.messages;
      exists q :: q in UserRequests(Server.GroupedView(ms), b.userEmail)
        && q.entry.mid == mid && StatusLabel(q.entry.status) == "Pending"
  {
    var ms := Server.SubmitMessage(s, b, mid, now).store.messages;
    var n := |s.messages|;
    MessageOnShortlist(ms, n);
    var q := Restored(SortNewestFirst(ms), ms[n]);
    assert q.entry.mid == mid && q.entry.status == StatusPending;
  }
}
